=== FILE: README.md ===
# Wallhaven wallpaper sync: a Dafny model of its decision logic

`scripts/sync-wallhaven-wallpapers.py` sweeps the Wallhaven search API page by page. It then:

- normalises and filters the results;
- de-duplicates them by id and sorts them;
- writes a tab-separated manifest;
- downloads every image through a `.part` staging file;
- optionally deletes image files that no manifest record names.

This project models that pipeline as pure functions over explicit state. The HTTP layer, the clock and the image directory are not real here:

- **Search API.** `Collect.Api` is a function answering (page number, attempt number) with a reply.
- **Image host.** `Download.Network` answers (url, attempt number) with how that transfer went.
- **Image directory.** `Fs.Entries` maps names to nodes: a regular file, a sub-directory or another kind of node (a socket, a FIFO), each with its size.
- **Sleeps.** They are returned as values and never performed.

Modules, one per file:

| file | module | what it covers |
|---|---|---|
| `wrappers.dfy` | `Wrappers` | `Option` and `Result` |
| `text.dfy` | `Text` | `str.strip`, `str.lower` (ASCII), `str.isdigit`, `str(int)`, `int(str)`, `split` and `join` |
| `lex.dfy` | `Lex` | Python's ordering of `str` values, used by `sorted(key=id)` |
| `paths.dfy` | `Paths` | `PurePosixPath.name`, `.suffix` and `.with_suffix` |
| `records.dfy` | `Records` | `Wallpaper`, `FilterConfig`, `normalize_item`, `keep_wallpaper`, the filter clamp in `main` |
| `retry.dfy` | `Retry` | the retry/backoff policy shared by `http_json` and `download_one` |
| `collect.dfy` | `Collect` | `collect_wallpapers`: page clamp, ingest, sort, run metadata |
| `manifest.dfy` | `Manifest` | `write_manifest` as a sequence of lines, plus a reader for the round trip |
| `fs.dfy` | `Fs` | the abstract image directory |
| `download.dfy` | `Download` | `download_one` and `download_wallpapers` |
| `prune.dfy` | `Prune` | `prune_non_manifest_images` |
| `sync.dfy` | `Sync` | `main` |

## Model

| member | source | states |
|---|---|---|
| Records.Normalize | scripts/sync-wallhaven-wallpapers.py:92-110 | An accepted item always gives a well-formed record. Its id and url are the stripped inputs and are non-empty. Its suffix is the lower-cased suffix of the url's last component and one of `.jpg`/`.jpeg`/`.png`/`.webp`. Its file name is `wh-` + id + suffix. The dimensions are copied unchanged. |
| Records.NormalizeRejects | scripts/sync-wallhaven-wallpapers.py:93-101 | An item is rejected exactly when its id is all whitespace, or its path is all whitespace, or its path's lower-cased suffix is not allowed. |
| Records.ParseFilenameRoundTrip | scripts/sync-wallhaven-wallpapers.py:102 | A record's file name can be read back into exactly the id and suffix it was built from. |
| Records.FilenameInjective | scripts/sync-wallhaven-wallpapers.py:102 | Two well-formed records share a file name only if they share id and suffix. |
| Records.StagingNeverFilename | scripts/sync-wallhaven-wallpapers.py:188 | No record's staging name equals any record's file name. |
| Records.KeepIff | scripts/sync-wallhaven-wallpapers.py:113-121 | A record is kept if and only if it meets both minimums and has a positive height (even when the minimum height is 0), and its aspect ratio lies in the inclusive window, stated without division. |
| Records.KeepExample | scripts/sync-wallhaven-wallpapers.py:113-121 | With minimum width 1000 and window [1, 3], 2000x1000 is kept and 500x2000 is dropped. |
| Records.MakeFilters | scripts/sync-wallhaven-wallpapers.py:325-332 | The run is refused exactly when the clamped maximum aspect is below the clamped minimum. Otherwise every threshold is non-negative, the window is ordered, and every threshold is its option clamped at zero. |
| Text.Strip | scripts/sync-wallhaven-wallpapers.py:93-94 | The result is a slice of the input. Only whitespace was cut on either side, and the result neither starts nor ends with whitespace. |
| Text.StripEmptyIff | scripts/sync-wallhaven-wallpapers.py:97 | A string strips to the empty string exactly when all of its characters are whitespace. |
| Text.ParseIntRoundTrip | scripts/sync-wallhaven-wallpapers.py:255 | Reading back a rendered width or height gives the same integer. |
| Text.SplitJoin | scripts/sync-wallhaven-wallpapers.py:255 | Splitting a tab-joined row gives the columns back when no column holds a tab. |
| Lex.LessIffFirstDifference | scripts/sync-wallhaven-wallpapers.py:162 | String order holds exactly when the first string is a proper prefix of the second, or holds the smaller character at the first difference. |
| Lex.Transitive | scripts/sync-wallhaven-wallpapers.py:162 | The sort key order is transitive. |
| Lex.Total | scripts/sync-wallhaven-wallpapers.py:162 | Of two different ids, one sorts first. |
| Paths.Suffix | scripts/sync-wallhaven-wallpapers.py:99 | The suffix is non-empty exactly when the name has a dot that is neither first nor last, with no dot after it. It then runs from that dot to the end. |
| Paths.StagingName | scripts/sync-wallhaven-wallpapers.py:188 | `with_suffix(suffix + ".part")` always equals the name with `.part` appended. |
| Paths.NameOfJoin | scripts/sync-wallhaven-wallpapers.py:182 | The final component of `dir / name` is `name`. |
| Download.FlatNames | scripts/sync-wallhaven-wallpapers.py:182-187 | For a record whose id has no `/`, the destination and staging paths name exactly the directory entries `filename` and `filename.part`. |
| Download.SlashIdLeavesDirectory | scripts/sync-wallhaven-wallpapers.py:102-110 | A well-formed record with id `a/b` has a destination whose final component is `b.jpg`, not its file name `wh-a/b.jpg`. |
| Retry.Decide | scripts/sync-wallhaven-wallpapers.py:54-75 | A failed attempt is retried exactly when attempts remain and the failure is 429/500/502/503/504 or a network error. The next delay is the doubled capped delay, and without Retry-After the sleep is the current delay. |
| Retry.NextDelayBackoff | scripts/sync-wallhaven-wallpapers.py:63 | One `min(delay * 2, 30)` step moves the closed-form schedule forward by one attempt. |
| Retry.BackoffSchedule | scripts/sync-wallhaven-wallpapers.py:48-73 | Delays go 1.5, 3, 6, 12, 24 and then stay at 30. They never fall below 1.5 or exceed 30. |
| Retry.Loop | scripts/sync-wallhaven-wallpapers.py:49-75 | From any attempt on, every attempt before the last failed transiently. The sleep after attempt k is Retry-After or the backoff delay, and the delay doubles regardless. The run stops at the first success, the first non-transient failure, or attempt 8. |
| Retry.Run | scripts/sync-wallhaven-wallpapers.py:47-76 | A request makes between 1 and 8 attempts, and the stopping and sleeping rules above hold from attempt 1. |
| Retry.SleepsBounded | scripts/sync-wallhaven-wallpapers.py:57-63 | Without Retry-After headers, every sleep lies between 1.5 and 30 seconds. |
| Retry.NonRetryableFailsAtOnce | scripts/sync-wallhaven-wallpapers.py:54-65 | A first reply with a non-retryable status such as 404 ends the request after one attempt, with no sleep. |
| Collect.EffectiveLastPage | scripts/sync-wallhaven-wallpapers.py:133-137 | The last page is the reported one (absent or 0 reads as 1), cut down to `max_pages` when that is positive. It is at least 1 whenever the report is. |
| Collect.PageLimitExample | scripts/sync-wallhaven-wallpapers.py:133-137 | 5 reported with limit 2 gives 2, with no limit gives 5, and a missing or 0 report gives 1. |
| Collect.IngestAppend | scripts/sync-wallhaven-wallpapers.py:151-156 | Ingesting page after page equals ingesting the concatenated items. |
| Collect.IngestPagesAll | scripts/sync-wallhaven-wallpapers.py:142-156 | Calling `ingest` on each page as it arrives gives the same map and counter as ingesting all the pages' items once every page is in. |
| Collect.IngestSeen | scripts/sync-wallhaven-wallpapers.py:142-147 | `seen_total` grows by exactly the number of items that normalise, whatever the filter says. |
| Collect.IngestKeys | scripts/sync-wallhaven-wallpapers.py:148-149 | The map's keys are exactly the earlier keys plus the ids of the kept records. |
| Collect.IngestLastWins | scripts/sync-wallhaven-wallpapers.py:148-149 | The entry for an id is the last kept record with that id. |
| Collect.IngestSound | scripts/sync-wallhaven-wallpapers.py:144-149 | Every map entry is filed under its own id, is well formed and passes the filter. |
| Collect.InsertById | scripts/sync-wallhaven-wallpapers.py:162 | Inserting a record with a new id keeps the sequence strictly ascending, and adds exactly that record. |
| Collect.SortById | scripts/sync-wallhaven-wallpapers.py:162 | The result is strictly ascending by id and holds exactly the map's values, once each. |
| Collect.AscendingUnique | scripts/sync-wallhaven-wallpapers.py:162 | Two strictly ascending sequences of the same records are equal, so the result is the one `sorted` returns. |
| Collect.FetchRest | scripts/sync-wallhaven-wallpapers.py:154-156 | Pages 2..N are requested once each, in order. On success there are max(1, N) pages, the i-th being the reply to page i. On failure, the first page that gave up is returned and every earlier page was fetched. |
| Collect.Collect | scripts/sync-wallhaven-wallpapers.py:124-178 | Pages 1..max(1, N) are fetched in order, with N the clamped last page of page 1. The metadata records query, purity, filters, total, the number of normalising items, N, and the number of records. The records are the values of the page-by-page ingest map sorted by id, all well formed and kept. A page that gives up aborts the run with its failure. That page is page 1, or a page no later than the clamped last page of a fetched page 1. |
| Collect.Summarise | scripts/sync-wallhaven-wallpapers.py:157-178 | Once the pages are in, the records are the values of the page-by-page ingest sorted by id, all well formed and kept. The metadata counts the normalising items and the records. |
| Manifest.Lines | scripts/sync-wallhaven-wallpapers.py:249-256 | One header line, then one row per record in the same order. |
| Manifest.RowRoundTrip | scripts/sync-wallhaven-wallpapers.py:254-256 | A well-formed record without tabs is recovered exactly from its row. |
| Manifest.LinesRoundTrip | scripts/sync-wallhaven-wallpapers.py:249-256 | Reading the manifest back gives exactly the records it was written from, in order. |
| Manifest.LinesExample | scripts/sync-wallhaven-wallpapers.py:252-256 | A single 1920x1080 PNG record gives the header and the row `abc 1920 1080 .png wh-abc.png url`, tab-separated. |
| Download.Attempts | scripts/sync-wallhaven-wallpapers.py:186-212 | The attempt loop never reports a skip and changes only the file and its staging name. A success leaves the transferred size at the destination and no staging file. A completed transfer onto a sub-directory is never a success: the rename raises an uncaught error. A failure leaves the destination as it was, and a caught failure removes the staging file. |
| Download.AttemptsFollowRetry | scripts/sync-wallhaven-wallpapers.py:186-212 | The attempt loop makes the same decisions as `http_json`'s loop: same outcome, same number of attempts, same sleeps. |
| Download.DownloadOneAsWritten | scripts/sync-wallhaven-wallpapers.py:181-212 | The function as written: a skip happens exactly when the destination exists with size > 0, and then nothing changes and nothing is requested. Only the record's two names change, a failure keeps the destination, and only HTTP and network failures are guaranteed to remove the staging file. |
| Download.DownloadOne | scripts/sync-wallhaven-wallpapers.py:181-212 | The same function, corrected: the same skip and frame rules, the destination changes only by a completed transfer, and no staging file survives any outcome other than a skip. |
| Download.DownloadFollowsRetry | scripts/sync-wallhaven-wallpapers.py:186-212 | A download that is not skipped has the status, attempts and sleeps of `Retry.Run` on the host's answers. A completed transfer counts as the rename's uncaught error when the destination is a sub-directory. |
| Download.StatusDependsOnDestination | scripts/sync-wallhaven-wallpapers.py:182-193 | A record's status depends only on whether its destination is occupied and whether it is a sub-directory. |
| Download.DirectoryBlocksRename | scripts/sync-wallhaven-wallpapers.py:183-193 | An empty sub-directory at the destination is not skipped. The completed transfer's rename onto it fails with an uncaught error after one attempt, and the sub-directory stays. As written, the 7 staged bytes stay too. Corrected, they are removed. |
| Download.StagingLeak | scripts/sync-wallhaven-wallpapers.py:191-192 | With the function as written, a transfer that breaks mid-copy with an uncaught exception leaves its 512 staged bytes on disk. |
| Download.TallyOf | scripts/sync-wallhaven-wallpapers.py:218-243 | Each counter is the number of statuses of its kind (downloads, skips, failures). So the three add up to the number of records, and the failure counter is 0 exactly when nothing failed. |
| Download.DownloadAll | scripts/sync-wallhaven-wallpapers.py:222-234 | The batch has one status per record, and names that no record touches keep their entries. |
| Download.DownloadWallpapers | scripts/sync-wallhaven-wallpapers.py:215-243 | Each counter is the number of the batch's statuses of its kind. downloaded + skipped + failed equals the number of records, and failed is 0 exactly when no record failed. |
| Download.SameOutcomeAsWritten | scripts/sync-wallhaven-wallpapers.py:181-212 | `download_one` as written and corrected report the same status after the same attempts and sleeps. Their directories differ at most in the staging name. |
| Download.DownloadAllAsWritten | scripts/sync-wallhaven-wallpapers.py:222-234 | The batch over `download_one` as written has one status per record, and names that no record touches keep their entries. |
| Download.AsWrittenSameStatuses | scripts/sync-wallhaven-wallpapers.py:222-234 | For records with distinct file names, the as-written batch reports exactly the statuses of the corrected batch, so the counters are the same. |
| Download.BatchIndependent | scripts/sync-wallhaven-wallpapers.py:222-234 | Each record gets the status it would get against the starting directory, so the counts do not depend on completion order. |
| Download.AllOccupied | scripts/sync-wallhaven-wallpapers.py:183-194 | When every record was skipped or downloaded non-empty, every record's destination is occupied afterwards. |
| Download.SecondRunSkips | scripts/sync-wallhaven-wallpapers.py:183-184 | After such a batch, a second run skips every record with no request, whatever the network answers. |
| Prune.KeepNames | scripts/sync-wallhaven-wallpapers.py:262 | The kept names are exactly the records' file names. |
| Prune.Pruned | scripts/sync-wallhaven-wallpapers.py:264-270 | Exactly the regular files with an unkept name disappear, and every other entry stays unchanged. |
| Prune.PrunedCount | scripts/sync-wallhaven-wallpapers.py:263-271 | The entries split into those that stay and those removed. |
| Prune.PruneImages | scripts/sync-wallhaven-wallpapers.py:259-271 | A missing directory stays missing and 0 is returned. Otherwise the directory becomes `Pruned` and the count is the number of files removed. |
| Prune.PruneExample | scripts/sync-wallhaven-wallpapers.py:259-271 | With a.jpg, b.jpg and c.jpg present and records for a.jpg and c.jpg, only b.jpg goes and 1 is returned. |
| Sync.AscendingDistinct | scripts/sync-wallhaven-wallpapers.py:162 | Records sorted strictly by id have pairwise distinct file names. |
| Sync.DownloadAndPrune | scripts/sync-wallhaven-wallpapers.py:346-351 | Downloads are skipped when only metadata is asked for. Otherwise the statuses are those of the batch over the starting directory (an absent directory is empty), and the counters are their tally. Pruning runs exactly when asked, on the directory the batch left, and returns the number of files removed. After a clean batch followed by pruning, every record's file is present and every remaining regular file is a record's. |
| Sync.Sweep | scripts/sync-wallhaven-wallpapers.py:124-178 | With every request sent through the retrying client over the API, the pages are the replies to pages 1..N in order. A failure is the failure of the first page that gave up, which is page 1 or a page within the clamped last page. |
| Sync.Run | scripts/sync-wallhaven-wallpapers.py:318-354 | The run is refused on inverted aspect bounds exactly when the clamped maximum is below the clamped minimum. An API failure is the failure of the first page that gave up, which is page 1 or a page within the last page clamped by the page limit. On success: the pages are the API's replies to pages 1..N, with N clamped by the page limit. The metadata holds the query, the purity, the clamped filters and the counts. The records are the ingested values sorted by id, and the manifest is rendered from them. The statuses and counters are those of the batch over `net`, and the directory is the one that batch left, pruned when asked. Pruning a missing directory leaves it missing and counts 0. |

## Left out

- HTTP, JSON and URL encoding: `urlopen`, `json.load` and `urlencode` are left out. A page arrives as decoded items plus `meta`. The remote ends are functions of (key, attempt), so a model run is deterministic.
- Sleeps: `time.sleep` and the `--sleep` pause between pages are returned as values or dropped, never performed.
- `time.time()`: the `generated_at_unix` metadata field is dropped.
- Output: all `print` output and `per_page` are dropped.
- File writing: the manifest and metadata files, `json.dumps`, and `mkdir(parents=True)` are dropped. `Manifest.Lines` gives the manifest's lines.
- Command line: `argparse` defaults and the `--dest` and `--workers` options are dropped. `Sync.Options` carries the rest.
- Thread pool: `ThreadPoolExecutor` is replaced by a sequential fold in list order. `Download.BatchIndependent` shows that each status, and so each counter, is the same in any completion order.
- Floating point: aspect ratios, delays and Retry-After values are exact reals. 1.5 doubled and capped at 30 is exact in binary floating point too. A ratio at a window boundary could round differently in floating point.
- `int()` failures: malformed numbers in the API's `meta` or dimensions are out of scope. Dimensions arrive as integers, with absent values read as 0.
- `Text.Lower`: `str.lower` is modelled on ASCII letters only, because the allowed suffixes are ASCII and a non-ASCII suffix is rejected either way.
- `Text.IsDigits`: `str.isdigit` is modelled on ASCII digits only, so a Retry-After made of other digits falls back to the backoff delay here. In the program, `http.client` decodes headers as Latin-1, and `'¹'`, `'²'` and `'³'` pass `isdigit()`. `float()` then raises `ValueError` on them inside the `HTTPError` handler, which aborts that request instead of sleeping.
- Paths: `Paths.Name` treats only `/` as a separator, and a URL's query string counts as part of its last component, as in `Path(url)`.
- Staging cleanup: `Download.Attempts` and `Download.DownloadOne` treat the staging name as a plain file. A directory with that name, which would make `unlink` fail, is not modelled.
- Timeouts: a read timeout or connection reset raised while the body is copied is an exception that neither retry loop catches. The model follows the code, so such failures are not retried and the download fails with `Uncaught`.
- `Collect.Collect`: items are ingested after all pages are fetched, not page by page. The results agree because a page that gives up aborts the whole run before anything is written.
- `Collect.Collect`: it receives the page requests as a `Fetcher`. `Sync.Run` passes `Collect.FetchPage` over the `Api`, which is `Retry.Run` on that page's replies.
- `Download.DownloadAll`: the batch, and through it `Download.DownloadWallpapers` and `Sync.Run`, uses the corrected `Download.DownloadOne` from the Findings row. The program leaves a `.part` file behind after an uncaught mid-copy failure, and this batch does not. `Download.DownloadAllAsWritten` is the batch as written. `Download.AsWrittenSameStatuses` shows that its statuses and counters are the same.
- Ids containing `/`: `normalize_item` accepts them, and the program then writes `wh-a/b.jpg` below a sub-directory `wh-a`. `tmp.open` fails there unless that sub-directory exists, and pruning never lists the file. The model keys the image directory by plain names, which is exact only for ids without `/` (`Download.FlatNames`). `Download.SlashIdLeavesDirectory` shows the mismatch for an id with `/`.
- The final `RuntimeError` after the loop in `http_json` cannot be reached, because the last attempt always returns or raises.

## Findings

| source | as written | input that shows it | evidently intended | confidence | as-written member | corrected member |
|---|---|---|---|---|---|---|
| scripts/sync-wallhaven-wallpapers.py:189-212 | Only the `HTTPError` and `URLError` handlers remove `<file>.part`. Any other exception raised after `tmp.open("wb")` escapes with the partial file still on disk. This includes the `IsADirectoryError` that `tmp.replace(dst)` raises when the destination is an empty sub-directory. | Destination absent, connection succeeds, then `copyfileobj` raises a socket timeout after 512 bytes: the record is counted as failed, and `wh-<id>.<ext>.part` of 512 bytes remains. | The `.part` staging file exists so that no partial file survives a failed transfer, and both caught-failure branches already remove it. An uncaught failure should remove it too. | medium, not executed | Download.DownloadOneAsWritten, Download.StagingLeak, Download.DirectoryBlocksRename | Download.DownloadOne |

=== FILE: collect.dfy ===
/** `collect_wallpapers`: the page-count clamp, the per-item ingest into an id-keyed
    map with its `seen_total` counter, the sort by id and the run metadata. The HTTP
    layer is an `Api` function answering (page number, attempt number). */
module Collect {
  import opened Wrappers
  import opened Records
  import Retry
  import Lex

  /** The `meta` object of a search page; a key that is absent reads as None. */
  datatype PageMeta = PageMeta(lastPage: Option<int>, total: Option<int>)

  /** One decoded search page: its `data` items (empty when absent) and its `meta`. */
  datatype Page = Page(data: seq<RawItem>, meta: PageMeta)

  /** `int(meta.get("last_page", 1) or 1)`: absent or zero reads as one page. */
  function ReportedLastPage(meta: PageMeta): int {
    match meta.lastPage
    case None => 1
    case Some(n) => if n == 0 then 1 else n
  }

  /** `int(meta.get("total", 0) or 0)`. */
  function TotalReported(meta: PageMeta): int {
    match meta.total
    case None => 0
    case Some(n) => n
  }

  /** The last page the sweep requests: the reported last page, cut down to `maxPages`
      when that is positive. */
  function EffectiveLastPage(meta: PageMeta, maxPages: int): (n: int)
    ensures maxPages > 0 ==> n <= maxPages
    ensures n <= ReportedLastPage(meta)
    ensures n == ReportedLastPage(meta) || n == maxPages
    ensures ReportedLastPage(meta) >= 1 && maxPages >= 0 ==> n >= 1
  {
    var last := ReportedLastPage(meta);
    if maxPages > 0 && maxPages < last then maxPages else last
  }

  /** Example: the API reports five pages and the caller limits the run to two. */
  lemma PageLimitExample(total: Option<int>)
    ensures EffectiveLastPage(PageMeta(Some(5), total), 2) == 2
    ensures EffectiveLastPage(PageMeta(Some(5), total), 0) == 5
    ensures EffectiveLastPage(PageMeta(None, total), 0) == 1
    ensures EffectiveLastPage(PageMeta(Some(0), total), 3) == 1
  {
  }

  /** The state `ingest` updates: the id-keyed map and the `seen_total` counter. */
  datatype Accumulator = Accumulator(byId: map<string, Wallpaper>, seen: nat)

  const Empty := Accumulator(map[], 0)

  /** `normalize_item` applied to each raw item of a run. */
  function NormalizeAll(items: seq<RawItem>): (r: seq<Option<Wallpaper>>)
    ensures |r| == |items|
    ensures forall i :: 0 <= i < |items| ==> r[i] == Normalize(items[i])
  {
    seq(|items|, i requires 0 <= i < |items| => Normalize(items[i]))
  }

  lemma NormalizeAllAppend(a: seq<RawItem>, b: seq<RawItem>)
    ensures NormalizeAll(a + b) == NormalizeAll(a) + NormalizeAll(b)
  {
    assert forall i :: 0 <= i < |a| ==> (a + b)[i] == a[i];
    assert forall i :: |a| <= i < |a| + |b| ==> (a + b)[i] == b[i - |a|];
  }

  /** One iteration of `ingest`, given what `normalize_item` returned for the item:
      every record counts as seen, filter or not, and every kept one overwrites the
      map entry for its id. */
  function IngestOne(acc: Accumulator, wp: Option<Wallpaper>, f: FilterConfig): Accumulator {
    match wp
    case None => acc
    case Some(w) =>
      Accumulator(if Keep(w, f) then acc.byId[w.id := w] else acc.byId, acc.seen + 1)
  }

  /** `ingest` over a run of normalised items, first to last. */
  function Ingest(acc: Accumulator, wps: seq<Option<Wallpaper>>, f: FilterConfig): Accumulator
    decreases |wps|
  {
    if |wps| == 0 then acc
    else IngestOne(Ingest(acc, wps[..|wps| - 1], f), wps[|wps| - 1], f)
  }

  /** Ingesting two runs one after the other is ingesting their concatenation. */
  lemma {:induction false} IngestAppend(acc: Accumulator, a: seq<Option<Wallpaper>>, b: seq<Option<Wallpaper>>, f: FilterConfig)
    ensures Ingest(acc, a + b, f) == Ingest(Ingest(acc, a, f), b, f)
    decreases |b|
  {
    if |b| > 0 {
      assert (a + b)[..|a + b| - 1] == a + b[..|b| - 1];
      assert (a + b)[|a + b| - 1] == b[|b| - 1];
      IngestAppend(acc, a, b[..|b| - 1], f);
    } else {
      assert a + b == a;
    }
  }

  /** Positions of the items that normalised to a record. */
  function RecordIndices(wps: seq<Option<Wallpaper>>): set<int> {
    set i | 0 <= i < |wps| && wps[i].Some?
  }

  /** `seen_total` grows by the number of items that normalise, whatever the filter. */
  lemma {:induction false} IngestSeen(acc: Accumulator, wps: seq<Option<Wallpaper>>, f: FilterConfig)
    ensures Ingest(acc, wps, f).seen == acc.seen + |RecordIndices(wps)|
    decreases |wps|
  {
    if |wps| > 0 {
      var n := |wps| - 1;
      var pre := wps[..n];
      IngestSeen(acc, pre, f);
      if wps[n].Some? {
        assert RecordIndices(wps) == RecordIndices(pre) + {n};
      } else {
        assert RecordIndices(wps) == RecordIndices(pre);
      }
    } else {
      assert RecordIndices(wps) == {};
    }
  }

  /** Item `i` normalised to a kept record with id `k`. */
  predicate AcceptedWithId(wps: seq<Option<Wallpaper>>, i: int, k: string, f: FilterConfig) {
    0 <= i < |wps| && wps[i].Some? && Keep(wps[i].value, f) && wps[i].value.id == k
  }

  /** The map gains exactly the ids of the kept records: one entry per id. */
  lemma {:induction false} IngestKeys(acc: Accumulator, wps: seq<Option<Wallpaper>>, f: FilterConfig)
    ensures forall k :: k in Ingest(acc, wps, f).byId <==>
      k in acc.byId || exists i :: AcceptedWithId(wps, i, k, f)
    decreases |wps|
  {
    if |wps| > 0 {
      var n := |wps| - 1;
      var pre := wps[..n];
      IngestKeys(acc, pre, f);
      var prev := Ingest(acc, pre, f);
      assert Ingest(acc, wps, f) == IngestOne(prev, wps[n], f);
      forall k
        ensures k in Ingest(acc, wps, f).byId <==> k in acc.byId || exists i :: AcceptedWithId(wps, i, k, f)
      {
        if exists i :: AcceptedWithId(pre, i, k, f) {
          var i :| AcceptedWithId(pre, i, k, f);
          assert AcceptedWithId(wps, i, k, f);
        }
        if exists i :: AcceptedWithId(wps, i, k, f) {
          var i :| AcceptedWithId(wps, i, k, f);
          if i < n {
            assert AcceptedWithId(pre, i, k, f);
          }
        }
        if k in Ingest(acc, wps, f).byId && k !in prev.byId {
          assert AcceptedWithId(wps, n, k, f);
        }
      }
    }
  }

  /** Last write wins: the entry for an id is the last kept record with that id. */
  lemma {:induction false} IngestLastWins(acc: Accumulator, wps: seq<Option<Wallpaper>>, f: FilterConfig, i: int, k: string)
    requires AcceptedWithId(wps, i, k, f)
    requires forall j :: i < j < |wps| ==> !AcceptedWithId(wps, j, k, f)
    ensures k in Ingest(acc, wps, f).byId
    ensures Ingest(acc, wps, f).byId[k] == wps[i].value
    decreases |wps|
  {
    var n := |wps| - 1;
    if i < n {
      var pre := wps[..n];
      assert AcceptedWithId(pre, i, k, f);
      forall j | i < j < n
        ensures !AcceptedWithId(pre, j, k, f)
      {
        assert !AcceptedWithId(wps, j, k, f);
      }
      IngestLastWins(acc, pre, f, i, k);
      assert !AcceptedWithId(wps, n, k, f);
    }
  }

  /** Every entry is filed under its own id, is well formed and passes the filter. */
  predicate Sound(m: map<string, Wallpaper>, f: FilterConfig) {
    forall k :: k in m ==> m[k].id == k && WellFormed(m[k]) && Keep(m[k], f)
  }

  /** The map only ever holds well-formed, kept records under their own ids. */
  lemma {:induction false} IngestSound(acc: Accumulator, wps: seq<Option<Wallpaper>>, f: FilterConfig)
    requires Sound(acc.byId, f)
    requires forall i :: 0 <= i < |wps| && wps[i].Some? ==> WellFormed(wps[i].value)
    ensures Sound(Ingest(acc, wps, f).byId, f)
    decreases |wps|
  {
    if |wps| > 0 {
      IngestSound(acc, wps[..|wps| - 1], f);
    }
  }

  /** Python's `sorted(..., key=id)` on records with distinct ids: strictly ascending. */
  predicate Ascending(ws: seq<Wallpaper>) {
    forall i, j :: 0 <= i < j < |ws| ==> Lex.Less(ws[i].id, ws[j].id)
  }

  /** Inserts a record whose id is new into an ascending sequence. */
  function InsertById(ws: seq<Wallpaper>, w: Wallpaper): (r: seq<Wallpaper>)
    requires Ascending(ws)
    requires forall x :: x in ws ==> x.id != w.id
    ensures Ascending(r)
    ensures |r| == |ws| + 1
    ensures forall x :: x in r <==> x in ws || x == w
  {
    if |ws| == 0 then [w]
    else if Lex.Less(w.id, ws[0].id) then
      PrependBelow(ws, w);
      [w] + ws
    else
      Lex.Total(w.id, ws[0].id);
      var tail := InsertById(ws[1..], w);
      AscendingTail(ws);
      PrependAbove(ws, w, tail);
      [ws[0]] + tail
  }

  /** The tail of an ascending sequence is ascending and holds only its records. */
  lemma AscendingTail(ws: seq<Wallpaper>)
    requires Ascending(ws) && |ws| > 0
    ensures Ascending(ws[1..])
    ensures forall x :: x in ws[1..] ==> x in ws
  {
  }

  /** A record below the first of an ascending sequence can go in front of it. */
  lemma PrependBelow(ws: seq<Wallpaper>, w: Wallpaper)
    requires Ascending(ws) && |ws| > 0
    requires Lex.Less(w.id, ws[0].id)
    ensures Ascending([w] + ws)
  {
    forall j | 0 < j < |ws|
      ensures Lex.Less(w.id, ws[j].id)
    {
      Lex.Transitive(w.id, ws[0].id, ws[j].id);
    }
  }

  /** The first record of an ascending sequence can go in front of the insertion into
      the rest when the inserted record is above it. */
  lemma PrependAbove(ws: seq<Wallpaper>, w: Wallpaper, tail: seq<Wallpaper>)
    requires Ascending(ws) && |ws| > 0
    requires Lex.Less(ws[0].id, w.id)
    requires Ascending(tail)
    requires forall x :: x in tail <==> x in ws[1..] || x == w
    ensures Ascending([ws[0]] + tail)
    ensures forall x :: x in [ws[0]] + tail <==> x in ws || x == w
  {
    forall j | 0 <= j < |tail|
      ensures Lex.Less(ws[0].id, tail[j].id)
    {
      if tail[j] != w {
        assert tail[j] in ws[1..];
        var m :| 0 <= m < |ws[1..]| && ws[1..][m] == tail[j];
        assert ws[m + 1] == tail[j];
      }
    }
    assert ws == [ws[0]] + ws[1..];
  }

  /** The map entries are filed under their own ids. */
  predicate KeyedById(m: map<string, Wallpaper>) {
    forall k :: k in m ==> m[k].id == k
  }

  /** `sorted(by_id.values(), key=lambda w: w.wallhaven_id)`. */
  method SortById(byId: map<string, Wallpaper>) returns (ws: seq<Wallpaper>)
    requires KeyedById(byId)
    ensures Ascending(ws)
    ensures forall w :: w in ws <==> w in byId.Values
    ensures |ws| == |byId|
  {
    ws := [];
    var rest := byId.Keys;
    while rest != {}
      invariant rest <= byId.Keys
      invariant Ascending(ws)
      invariant forall w :: w in ws <==> w.id in byId.Keys - rest && byId[w.id] == w
      invariant |ws| + |rest| == |byId.Keys|
      decreases rest
    {
      var k :| k in rest;
      ws := InsertById(ws, byId[k]);
      rest := rest - {k};
    }
    assert forall w :: w in byId.Values <==> w.id in byId.Keys && byId[w.id] == w;
  }

  lemma SameElementsEmpty(a: seq<Wallpaper>, b: seq<Wallpaper>)
    requires forall w :: w in a <==> w in b
    ensures |a| == 0 <==> |b| == 0
  {
    if |a| > 0 {
      assert a[0] in a;
    }
    if |b| > 0 {
      assert b[0] in b;
    }
  }

  /** Two ascending sequences with the same records are the same sequence, so the
      insertion sort above and Python's `sorted` agree. */
  lemma {:induction false} AscendingUnique(a: seq<Wallpaper>, b: seq<Wallpaper>)
    requires Ascending(a) && Ascending(b)
    requires forall w :: w in a <==> w in b
    ensures a == b
    decreases |a|
  {
    SameElementsEmpty(a, b);
    if |a| > 0 && |b| > 0 {
      assert a[0] in a && b[0] in b;
      if a[0] != b[0] {
        var i :| 0 <= i < |b| && b[i] == a[0];
        var j :| 0 <= j < |a| && a[j] == b[0];
        assert i > 0 && j > 0;
        Lex.Asymmetric(b[0].id, a[0].id);
      }
      forall w
        ensures w in a[1..] <==> w in b[1..]
      {
        if w in a[1..] {
          var i :| 1 <= i < |a| && a[i] == w;
          assert w != a[0] by {
            Lex.Irreflexive(a[0].id);
          }
          assert w in b;
          var m :| 0 <= m < |b| && b[m] == w;
          assert b[1..][m - 1] == w;
        }
        if w in b[1..] {
          var i :| 1 <= i < |b| && b[i] == w;
          assert w != b[0] by {
            Lex.Irreflexive(b[0].id);
          }
          assert w in a;
          var m :| 0 <= m < |a| && a[m] == w;
          assert a[1..][m - 1] == w;
        }
      }
      AscendingUnique(a[1..], b[1..]);
      assert a == [a[0]] + a[1..] && b == [b[0]] + b[1..];
    }
  }

  /** The items of the fetched pages, in the order they were ingested. */
  function AllItems(pages: seq<Page>): seq<RawItem> {
    if |pages| == 0 then [] else AllItems(pages[..|pages| - 1]) + pages[|pages| - 1].data
  }

  /** `ingest(page)` called as each page arrives, first page first. */
  function IngestPages(acc: Accumulator, pages: seq<Page>, f: FilterConfig): Accumulator
    decreases |pages|
  {
    if |pages| == 0 then acc
    else Ingest(IngestPages(acc, pages[..|pages| - 1], f), NormalizeAll(pages[|pages| - 1].data), f)
  }

  /** Ingesting page by page as the pages arrive gives the same map and counter as
      ingesting all their items once every page is in. */
  lemma {:induction false} IngestPagesAll(acc: Accumulator, pages: seq<Page>, f: FilterConfig)
    ensures IngestPages(acc, pages, f) == Ingest(acc, NormalizeAll(AllItems(pages)), f)
    decreases |pages|
  {
    if |pages| > 0 {
      var pre, last := pages[..|pages| - 1], pages[|pages| - 1];
      IngestPagesAll(acc, pre, f);
      NormalizeAllAppend(AllItems(pre), last.data);
      IngestAppend(acc, NormalizeAll(AllItems(pre)), NormalizeAll(last.data), f);
    }
  }

  /** The remote search endpoint: the reply to attempt `k` for page `p` is `api(p, k)`. */
  type Api = (int, nat) -> Retry.Reply<Page>

  /** `fetch_page`: one page through the retrying JSON client. */
  function FetchPage(api: Api, page: int): Retry.Outcome<Page> {
    Retry.Run((k: nat) => api(page, k))
  }

  /** The metadata document written next to the manifest (timestamp left out). */
  datatype RunMeta = RunMeta(
    query: string,
    purity: string,
    filters: FilterConfig,
    totalReported: int,
    seen: nat,
    pagesFetched: int,
    unique: nat)

  /** The result of a sweep: the sorted records, the metadata, and the pages fetched. */
  datatype Collected = Collected(wallpapers: seq<Wallpaper>, meta: RunMeta, pages: seq<Page>)

  /** How each page request ends; `FetchPage(api, _)` in a full run. */
  type Fetcher = int -> Retry.Outcome<Page>

  /** `ws` lists the values of `m` in ascending id order, each once. */
  ghost predicate SortedValues(ws: seq<Wallpaper>, m: map<string, Wallpaper>) {
    && Ascending(ws)
    && (forall w :: w in ws <==> w in m.Values)
    && |ws| == |m|
  }

  /** The page loop of `collect_wallpapers`: pages 2 .. `lastPage` in order after the
      already fetched `first`, stopping at the first request that gives up. */
  method FetchRest(fetch: Fetcher, first: Page, lastPage: int) returns (r: Result<seq<Page>, Retry.Failure>)
    requires fetch(1) == Retry.Fetched(first, fetch(1).attempts, fetch(1).sleeps)
    ensures r.Success? ==>
      && |r.value| == (if lastPage >= 1 then lastPage else 1)
      && r.value[0] == first
      && (forall i :: 0 <= i < |r.value| ==> fetch(i + 1) == Retry.Fetched(r.value[i], fetch(i + 1).attempts, fetch(i + 1).sleeps))
    ensures r.Failure? ==>
      exists p :: 2 <= p <= lastPage && fetch(p).GaveUp? && fetch(p).failure == r.error &&
        forall q :: 1 <= q < p ==> fetch(q).Fetched?
  {
    var pages := [first];
    var page := 2;
    while page <= lastPage
      invariant 2 <= page
      invariant page <= lastPage + 1 || page == 2
      invariant |pages| == page - 1
      invariant pages[0] == first
      invariant forall i :: 0 <= i < |pages| ==> fetch(i + 1) == Retry.Fetched(pages[i], fetch(i + 1).attempts, fetch(i + 1).sleeps)
      decreases lastPage - page
    {
      var o := fetch(page);
      if o.GaveUp? {
        forall q | 1 <= q < page
          ensures fetch(q).Fetched?
        {
          assert fetch(q) == Retry.Fetched(pages[q - 1], fetch(q).attempts, fetch(q).sleeps);
        }
        return Failure(o.failure);
      }
      var pages' := pages + [o.value];
      forall i | 0 <= i < |pages'|
        ensures fetch(i + 1) == Retry.Fetched(pages'[i], fetch(i + 1).attempts, fetch(i + 1).sleeps)
      {
        if i < |pages| {
          assert pages'[i] == pages[i];
        }
      }
      pages := pages';
      page := page + 1;
    }
    r := Success(pages);
  }

  /** The end of `collect_wallpapers` once every page is in: the items are ingested in
      page order, the kept records come out sorted by id, and the metadata counts them. */
  method Summarise(pages: seq<Page>, query: string, purity: string, filters: FilterConfig, lastPage: int)
    returns (c: Collected)
    requires |pages| >= 1
    ensures c.pages == pages
    ensures var wps := NormalizeAll(AllItems(pages));
      && c.meta == RunMeta(query, purity, filters, TotalReported(pages[0].meta),
                           |RecordIndices(wps)|, lastPage, |c.wallpapers|)
      && SortedValues(c.wallpapers, Ingest(Empty, wps, filters).byId)
      && SortedValues(c.wallpapers, IngestPages(Empty, pages, filters).byId)
      && (forall w :: w in c.wallpapers ==> WellFormed(w) && Keep(w, filters))
  {
    var wps := NormalizeAll(AllItems(pages));
    var acc := Ingest(Empty, wps, filters);
    IngestSound(Empty, wps, filters);
    IngestSeen(Empty, wps, filters);
    IngestPagesAll(Empty, pages, filters);
    var ws := SortById(acc.byId);
    var runMeta := RunMeta(query, purity, filters, TotalReported(pages[0].meta), acc.seen, lastPage, |ws|);
    c := Collected(ws, runMeta, pages);
  }

  /** `collect_wallpapers`: page 1, then pages 2..N in order where N is the clamped last
      page; the first page whose fetch gives up aborts the run with its failure; the
      items of the fetched pages are ingested in order, and the kept records come out
      sorted by id. The page requests go through `fetch`, which is `FetchPage` over the
      remote API. */
  method Collect(fetch: Fetcher, query: string, purity: string, filters: FilterConfig, maxPages: int)
    returns (r: Result<Collected, Retry.Failure>)
    ensures r.Success? ==>
      var c := r.value;
      var wps := NormalizeAll(AllItems(c.pages));
      && |c.pages| >= 1
      && var eff := EffectiveLastPage(c.pages[0].meta, maxPages);
      && |c.pages| == (if eff >= 1 then eff else 1)
      && (forall i :: 0 <= i < |c.pages| ==> fetch(i + 1) == Retry.Fetched(c.pages[i], fetch(i + 1).attempts, fetch(i + 1).sleeps))
      && c.meta == RunMeta(query, purity, filters, TotalReported(c.pages[0].meta),
                           |RecordIndices(wps)|, eff, |c.wallpapers|)
      && SortedValues(c.wallpapers, Ingest(Empty, wps, filters).byId)
      && SortedValues(c.wallpapers, IngestPages(Empty, c.pages, filters).byId)
      && (forall w :: w in c.wallpapers ==> WellFormed(w) && Keep(w, filters))
    ensures r.Failure? ==>
      exists p :: 1 <= p && fetch(p).GaveUp? && fetch(p).failure == r.error &&
        (p == 1 || (fetch(1).Fetched? && p <= EffectiveLastPage(fetch(1).value.meta, maxPages))) &&
        forall q :: 1 <= q < p ==> fetch(q).Fetched?
  {
    var first := fetch(1);
    if first.GaveUp? {
      return Failure(first.failure);
    }
    var meta := first.value.meta;
    var lastPage := EffectiveLastPage(meta, maxPages);
    var fetched := FetchRest(fetch, first.value, lastPage);
    if fetched.Failure? {
      return Failure(fetched.error);
    }
    var c := Summarise(fetched.value, query, purity, filters, lastPage);
    r := Success(c);
  }
}

=== FILE: download.dfy ===
/** `download_one` and `download_wallpapers` over an abstract image directory. The
    network is a function answering (url, attempt number) with how that attempt went;
    sleeps are returned, not performed; the thread pool becomes a sequential fold. */
module Download {
  import opened Wrappers
  import opened Fs
  import opened Records
  import Paths
  import Retry

  /** How one download attempt ended. `Complete(n)`: the response body, `n` bytes, was
      copied into the staging file in full. `Broken(f, staged)`: the attempt raised `f`;
      `staged` is the staging file's size when it had already been opened (and
      truncated) before the exception, and None when the exception came earlier. */
  datatype Attempt = Complete(size: nat) | Broken(failure: Retry.Failure, staged: Option<nat>)

  /** The remote image host: `net(url, k)` is how attempt k for `url` goes. */
  type Network = (string, nat) -> Attempt

  /** What `download_one` reports: "download", "skip", or the exception it raised. */
  datatype Status = Downloaded(size: nat) | Skipped | Failed(failure: Retry.Failure)

  /** The status, the directory afterwards, the attempts made and the sleeps taken. */
  datatype Transfer = Transfer(status: Status, entries: Entries, attempts: nat, sleeps: seq<real>)

  /** The name a record's bytes are staged under while in flight: the file name with
      ".part" appended, which is what `dst.with_suffix(dst.suffix + ".part")` gives
      (`StagingMatchesPaths`). */
  function Staging(w: Wallpaper): string {
    w.filename + ".part"
  }

  lemma StagingMatchesPaths(w: Wallpaper)
    ensures Staging(w) == Paths.StagingName(w.filename)
  {
  }

  /** The directory is keyed by plain names: for a record whose id holds no `/`, the
      destination `images_dir / filename` and its staging path name exactly the entries
      `filename` and `Staging(w)` of that directory. */
  lemma FlatNames(dir: string, w: Wallpaper)
    requires WellFormed(w) && '/' !in w.id
    ensures Paths.Name(dir + "/" + w.filename) == w.filename
    ensures Paths.Name(dir + "/" + Staging(w)) == Staging(w)
  {
    assert '/' !in w.ext;
    assert w.filename == "wh-" + w.id + w.ext;
    assert '/' !in w.filename by {
      forall k | 0 <= k < |w.filename|
        ensures w.filename[k] != '/'
      {
        if k < 3 {
        } else if k < 3 + |w.id| {
          assert w.filename[k] == w.id[k - 3];
        } else {
          assert w.filename[k] == w.ext[k - 3 - |w.id|];
        }
      }
    }
    assert '/' !in Staging(w);
    Paths.NameOfJoin(dir, w.filename);
    Paths.NameOfJoin(dir, Staging(w));
  }

  /** An id holding `/` breaks the flat keying: the record's destination is a file
      `b.jpg` below a sub-directory `wh-a`, not the entry named by its file name. */
  lemma SlashIdLeavesDirectory(dir: string)
    ensures var w := Wallpaper("a/b", 1, 1, "u/b.jpg", ".jpg", "wh-a/b.jpg");
      && WellFormed(w)
      && Paths.Name(dir + "/" + w.filename) == "b.jpg"
      && Paths.Name(dir + "/" + w.filename) != w.filename
  {
    NestedName(dir);
  }

  lemma NestedName(dir: string)
    ensures Paths.Name(dir + "/" + "wh-a/b.jpg") == "b.jpg"
  {
    var sub := dir + "/wh-a";
    assert dir + "/" + "wh-a/b.jpg" == sub + "/" + "b.jpg";
    Paths.NameOfJoin(sub, "b.jpg");
  }

  /** The two names one record's download may change. */
  function Touched(w: Wallpaper): set<string> {
    {w.filename, Staging(w)}
  }

  /** `tmp.open("wb")` followed by writing `n` bytes. */
  function Stage(e: Entries, tmp: string, n: nat): (r: Entries)
    ensures SameExcept(e, r, {tmp})
    ensures tmp in r && r[tmp] == Regular(n)
  {
    e[tmp := Regular(n)]
  }

  /** `tmp.replace(dst)`: the staged node moves to `dst`, replacing what was there. */
  function Rename(e: Entries, tmp: string, dst: string): (r: Entries)
    requires tmp in e && tmp != dst
    ensures SameExcept(e, r, {tmp, dst})
    ensures tmp !in r && dst in r && r[dst] == e[tmp]
  {
    (e - {tmp})[dst := e[tmp]]
  }

  /** `if tmp.exists(): tmp.unlink(missing_ok=True)`. */
  function Discard(e: Entries, tmp: string): (r: Entries)
    ensures SameExcept(e, r, {tmp})
    ensures tmp !in r
  {
    e - {tmp}
  }

  /** The answer the retry policy sees for attempt k. When the destination is a
      directory, a completed transfer still ends in the uncaught error of the rename. */
  function ReplyOf(net: Network, url: string, blocked: bool): nat -> Retry.Reply<nat> {
    (k: nat) => match net(url, k)
                case Complete(n) => if blocked then Retry.Err(Retry.Uncaught) else Retry.Ok(n)
                case Broken(f, _) => Retry.Err(f)
  }

  /** The status a finished retry loop amounts to. */
  function StatusOf(o: Retry.Outcome<nat>): Status {
    match o
    case Fetched(n, _, _) => Downloaded(n)
    case GaveUp(f, _, _) => Failed(f)
  }

  /** The attempt loop of `download_one` from attempt `attempt` on. A success renames
      the staging file onto the destination; a failure that the loop catches (an HTTP
      error or a URLError) discards the staging file; any other exception leaves the
      directory as it was when the exception escaped, unless `cleanAll` asks for the
      staging file to be discarded on every failure. Renaming a completed transfer onto a
      sub-directory raises an error neither handler catches. */
  function Attempts(net: Network, e: Entries, w: Wallpaper, cleanAll: bool, attempt: nat, delay: real, sleeps: seq<real>): (r: Transfer)
    requires 1 <= attempt <= Retry.MaxRetries
    requires delay == Retry.Backoff(attempt)
    requires |sleeps| == attempt - 1
    ensures r.status != Skipped
    ensures SameExcept(e, r.entries, Touched(w))
    ensures r.status.Downloaded? ==>
      Staging(w) !in r.entries && w.filename in r.entries && r.entries[w.filename] == Regular(r.status.size)
    ensures r.status.Failed? ==> SameAt(e, r.entries, w.filename)
    ensures r.status.Failed? && (cleanAll || !r.status.failure.Uncaught?) ==> Staging(w) !in r.entries
    ensures IsDirectory(e, w.filename) ==> !r.status.Downloaded?
    decreases Retry.MaxRetries - attempt
  {
    var dst, tmp := w.filename, Staging(w);
    assert tmp != dst by {
      assert |tmp| == |dst| + 5;
    }
    match net(w.url, attempt)
    case Complete(n) =>
      var staged := Stage(e, tmp, n);
      if IsDirectory(e, dst) then
        Transfer(Failed(Retry.Uncaught), if cleanAll then Discard(staged, tmp) else staged, attempt, sleeps)
      else
        Transfer(Downloaded(n), Rename(staged, tmp, dst), attempt, sleeps)
    case Broken(f, staged) =>
      var written := if staged.Some? then Stage(e, tmp, staged.value) else e;
      var after := if cleanAll || !f.Uncaught? then Discard(written, tmp) else written;
      match Retry.Decide(attempt, delay, f)
      case Retry(s, next) =>
        Retry.NextDelayBackoff(attempt);
        Attempts(net, after, w, cleanAll, attempt + 1, next, sleeps + [s])
      case GiveUp =>
        Transfer(Failed(f), after, attempt, sleeps)
  }

  /** Writing or discarding the staging file leaves the destination's kind alone. */
  lemma StagingLeavesDestination(e: Entries, w: Wallpaper, staged: Option<nat>, discard: bool)
    ensures var written := if staged.Some? then Stage(e, Staging(w), staged.value) else e;
      var after := if discard then Discard(written, Staging(w)) else written;
      IsDirectory(after, w.filename) == IsDirectory(e, w.filename)
  {
    assert Staging(w) != w.filename by {
      assert |Staging(w)| == |w.filename| + 5;
    }
  }

  /** Attempt `attempt` completed its transfer: the loop stops there, with a download
      or, onto a sub-directory, with the rename's uncaught error. */
  lemma CompleteFollowsRetry(net: Network, e: Entries, w: Wallpaper, cleanAll: bool, attempt: nat, delay: real, sleeps: seq<real>, n: nat)
    requires 1 <= attempt <= Retry.MaxRetries
    requires delay == Retry.Backoff(attempt)
    requires |sleeps| == attempt - 1
    requires net(w.url, attempt) == Complete(n)
    ensures var o := Retry.Loop(ReplyOf(net, w.url, IsDirectory(e, w.filename)), attempt, delay, sleeps);
      var r := Attempts(net, e, w, cleanAll, attempt, delay, sleeps);
      r.status == StatusOf(o) && r.attempts == o.attempts && r.sleeps == o.sleeps
  {
    var reply := ReplyOf(net, w.url, IsDirectory(e, w.filename));
    if IsDirectory(e, w.filename) {
      assert reply(attempt) == Retry.Err(Retry.Uncaught);
      assert Retry.Decide(attempt, delay, Retry.Uncaught) == Retry.GiveUp;
    } else {
      assert reply(attempt) == Retry.Ok(n);
    }
  }

  /** Attempt `attempt` broke with `f` and the policy gives up: both loops stop there. */
  lemma GiveUpFollowsRetry(net: Network, e: Entries, w: Wallpaper, cleanAll: bool, attempt: nat, delay: real, sleeps: seq<real>, f: Retry.Failure, staged: Option<nat>)
    requires 1 <= attempt <= Retry.MaxRetries
    requires delay == Retry.Backoff(attempt)
    requires |sleeps| == attempt - 1
    requires net(w.url, attempt) == Broken(f, staged)
    requires Retry.Decide(attempt, delay, f) == Retry.GiveUp
    ensures var o := Retry.Loop(ReplyOf(net, w.url, IsDirectory(e, w.filename)), attempt, delay, sleeps);
      var r := Attempts(net, e, w, cleanAll, attempt, delay, sleeps);
      r.status == StatusOf(o) && r.attempts == o.attempts && r.sleeps == o.sleeps
  {
    assert ReplyOf(net, w.url, IsDirectory(e, w.filename))(attempt) == Retry.Err(f);
  }

  /** Attempt `attempt` broke with `f` and the policy retries: both loops continue with
      attempt `attempt + 1` from the directory the failure left, whose destination is
      of the same kind. */
  lemma RetryStep(net: Network, e: Entries, w: Wallpaper, cleanAll: bool, attempt: nat, delay: real, sleeps: seq<real>, f: Retry.Failure, staged: Option<nat>, s: real, next: real)
    requires 1 <= attempt < Retry.MaxRetries
    requires delay == Retry.Backoff(attempt)
    requires next == Retry.Backoff(attempt + 1)
    requires |sleeps| == attempt - 1
    requires net(w.url, attempt) == Broken(f, staged)
    requires Retry.Decide(attempt, delay, f) == Retry.Retry(s, next)
    ensures var written := if staged.Some? then Stage(e, Staging(w), staged.value) else e;
      var after := if cleanAll || !f.Uncaught? then Discard(written, Staging(w)) else written;
      && Retry.Loop(ReplyOf(net, w.url, IsDirectory(e, w.filename)), attempt, delay, sleeps)
         == Retry.Loop(ReplyOf(net, w.url, IsDirectory(after, w.filename)), attempt + 1, next, sleeps + [s])
      && Attempts(net, e, w, cleanAll, attempt, delay, sleeps) == Attempts(net, after, w, cleanAll, attempt + 1, next, sleeps + [s])
  {
    StagingLeavesDestination(e, w, staged, cleanAll || !f.Uncaught?);
    assert ReplyOf(net, w.url, IsDirectory(e, w.filename))(attempt) == Retry.Err(f);
  }

  /** The attempt loop makes the same decisions as the retry loop of `http_json` on the
      host's answers: same status, same number of attempts, same sleeps. */
  lemma {:induction false} AttemptsFollowRetry(net: Network, e: Entries, w: Wallpaper, cleanAll: bool, attempt: nat, delay: real, sleeps: seq<real>)
    requires 1 <= attempt <= Retry.MaxRetries
    requires delay == Retry.Backoff(attempt)
    requires |sleeps| == attempt - 1
    ensures var o := Retry.Loop(ReplyOf(net, w.url, IsDirectory(e, w.filename)), attempt, delay, sleeps);
      var r := Attempts(net, e, w, cleanAll, attempt, delay, sleeps);
      r.status == StatusOf(o) && r.attempts == o.attempts && r.sleeps == o.sleeps
    decreases Retry.MaxRetries - attempt
  {
    match net(w.url, attempt)
    case Complete(n) =>
      CompleteFollowsRetry(net, e, w, cleanAll, attempt, delay, sleeps, n);
    case Broken(f, staged) =>
      match Retry.Decide(attempt, delay, f)
      case Retry(s, next) =>
        Retry.NextDelayBackoff(attempt);
        var written := if staged.Some? then Stage(e, Staging(w), staged.value) else e;
        var after := if cleanAll || !f.Uncaught? then Discard(written, Staging(w)) else written;
        RetryStep(net, e, w, cleanAll, attempt, delay, sleeps, f, staged, s, next);
        AttemptsFollowRetry(net, after, w, cleanAll, attempt + 1, next, sleeps + [s]);
      case GiveUp =>
        GiveUpFollowsRetry(net, e, w, cleanAll, attempt, delay, sleeps, f, staged);
  }

  /** `download_one` exactly as written: an exception other than an HTTP error or a
      URLError (a read timeout or a dropped connection while the body is being copied)
      escapes with the partial staging file still on disk. */
  function DownloadOneAsWritten(net: Network, e: Entries, w: Wallpaper): (r: Transfer)
    ensures r.status.Skipped? <==> Occupied(e, w.filename)
    ensures r.status.Skipped? ==> r.entries == e && r.attempts == 0
    ensures SameExcept(e, r.entries, Touched(w))
    ensures r.status.Failed? ==> SameAt(e, r.entries, w.filename)
    ensures r.status.Downloaded? ==>
      Staging(w) !in r.entries && w.filename in r.entries && r.entries[w.filename] == Regular(r.status.size)
    ensures r.status.Failed? && !r.status.failure.Uncaught? ==> Staging(w) !in r.entries
  {
    if Occupied(e, w.filename) then Transfer(Skipped, e, 0, [])
    else Attempts(net, e, w, false, 1, Retry.InitialDelay, [])
  }

  /** `download_one` with the staging file removed on every failure. The `.part` file
      exists so that no partial file survives a failed transfer, and both caught-failure
      branches already remove it; here an uncaught failure does too. An occupied
      destination is skipped without touching the network; otherwise the destination
      changes only by a completed transfer being renamed onto it, and no staging file
      survives. */
  function DownloadOne(net: Network, e: Entries, w: Wallpaper): (r: Transfer)
    ensures r.status.Skipped? <==> Occupied(e, w.filename)
    ensures r.status.Skipped? ==> r.entries == e && r.attempts == 0
    ensures SameExcept(e, r.entries, Touched(w))
    ensures r.status.Failed? ==> SameAt(e, r.entries, w.filename)
    ensures r.status.Downloaded? ==> w.filename in r.entries && r.entries[w.filename] == Regular(r.status.size)
    ensures !r.status.Skipped? ==> Staging(w) !in r.entries
  {
    if Occupied(e, w.filename) then Transfer(Skipped, e, 0, [])
    else Attempts(net, e, w, true, 1, Retry.InitialDelay, [])
  }

  /** A download that is not skipped follows the same retry policy as `http_json`:
      its status, attempts and sleeps are those of `Retry.Run` on the host's answers. */
  lemma DownloadFollowsRetry(net: Network, e: Entries, w: Wallpaper)
    requires !Occupied(e, w.filename)
    ensures var o := Retry.Run(ReplyOf(net, w.url, IsDirectory(e, w.filename)));
      var r := DownloadOne(net, e, w);
      r.status == StatusOf(o) && r.attempts == o.attempts && r.sleeps == o.sleeps
  {
    AttemptsFollowRetry(net, e, w, true, 1, Retry.InitialDelay, []);
  }

  /** A record's status depends only on whether its destination is occupied and
      whether it is a sub-directory, never on the rest of the directory. */
  lemma StatusDependsOnDestination(net: Network, e1: Entries, e2: Entries, w: Wallpaper)
    requires Occupied(e1, w.filename) == Occupied(e2, w.filename)
    requires IsDirectory(e1, w.filename) == IsDirectory(e2, w.filename)
    ensures DownloadOne(net, e1, w).status == DownloadOne(net, e2, w).status
  {
    if !Occupied(e1, w.filename) {
      DownloadFollowsRetry(net, e1, w);
      DownloadFollowsRetry(net, e2, w);
    }
  }

  /** The state left by `DownloadOneAsWritten` after a body copy that fails with an
      uncaught exception: the partial staging file is still there. */
  lemma StagingLeak(w: Wallpaper)
    ensures var net: Network := (u: string, k: nat) => Broken(Retry.Uncaught, Some(512));
      var r := DownloadOneAsWritten(net, map[], w);
      && r.status == Failed(Retry.Uncaught)
      && Staging(w) in r.entries
      && r.entries[Staging(w)] == Regular(512)
  {
  }

  /** An empty sub-directory at the destination is not skipped, and the rename of the
      completed transfer onto it fails: the record fails, the directory stays, and as
      written the staged bytes stay too; corrected, they are removed. */
  lemma DirectoryBlocksRename(w: Wallpaper)
    ensures var net: Network := (u: string, k: nat) => Complete(7);
      var e: Entries := map[w.filename := Directory(0)];
      var a, c := DownloadOneAsWritten(net, e, w), DownloadOne(net, e, w);
      && a.status == Failed(Retry.Uncaught) && a.attempts == 1
      && a.entries[w.filename] == Directory(0)
      && Staging(w) in a.entries && a.entries[Staging(w)] == Regular(7)
      && c.status == Failed(Retry.Uncaught) && Staging(w) !in c.entries
  {
    assert Staging(w) != w.filename by {
      assert |Staging(w)| == |w.filename| + 5;
    }
  }

  /** The downloaded / skipped / failed counters of `download_wallpapers`. */
  datatype Tally = Tally(downloaded: nat, skipped: nat, failed: nat)

  function Count(s: Status): Tally {
    match s
    case Downloaded(_) => Tally(1, 0, 0)
    case Skipped => Tally(0, 1, 0)
    case Failed(_) => Tally(0, 0, 1)
  }

  /** The positions of `ss` whose status satisfies `p`. */
  function Where(ss: seq<Status>, p: Status -> bool): set<nat> {
    set i: nat | i < |ss| && p(ss[i])
  }

  /** Adding a status at the end adds its position exactly when it satisfies `p`. */
  lemma WhereLast(ss: seq<Status>, p: Status -> bool)
    requires |ss| > 0
    ensures |Where(ss, p)| == |Where(ss[..|ss| - 1], p)| + (if p(ss[|ss| - 1]) then 1 else 0)
  {
    var n := |ss| - 1;
    var pre := Where(ss[..n], p);
    assert forall i :: 0 <= i < n ==> ss[..n][i] == ss[i];
    if p(ss[n]) {
      assert Where(ss, p) == pre + {n};
    } else {
      assert Where(ss, p) == pre;
    }
  }

  /** The counters over a batch's statuses: each counter is the number of statuses of
      its kind, so every record lands in exactly one of them, and the failure counter is
      zero exactly when nothing failed. */
  function TallyOf(ss: seq<Status>): (t: Tally)
    ensures t.downloaded == |Where(ss, (s: Status) => s.Downloaded?)|
    ensures t.skipped == |Where(ss, (s: Status) => s.Skipped?)|
    ensures t.failed == |Where(ss, (s: Status) => s.Failed?)|
    ensures t.downloaded + t.skipped + t.failed == |ss|
    ensures t.failed == 0 <==> forall i :: 0 <= i < |ss| ==> !ss[i].Failed?
    decreases |ss|
  {
    if |ss| == 0 then Tally(0, 0, 0)
    else
      var t := TallyOf(ss[..|ss| - 1]);
      var c := Count(ss[|ss| - 1]);
      WhereLast(ss, (s: Status) => s.Downloaded?);
      WhereLast(ss, (s: Status) => s.Skipped?);
      WhereLast(ss, (s: Status) => s.Failed?);
      Tally(t.downloaded + c.downloaded, t.skipped + c.skipped, t.failed + c.failed)
  }

  /** The directory after a batch and each record's status, in list order. */
  datatype Batch = Batch(entries: Entries, statuses: seq<Status>)

  /** A name that some record of `ws` may change. */
  predicate TouchedBy(ws: seq<Wallpaper>, name: string) {
    exists j :: 0 <= j < |ws| && name in Touched(ws[j])
  }

  /** One record's download as a step over the directory. */
  type Step = (Entries, Wallpaper) -> Transfer

  /** The step `download_wallpapers` takes for each record. */
  function StepOf(net: Network): Step {
    (e: Entries, w: Wallpaper) => DownloadOne(net, e, w)
  }

  /** A batch as a fold of `one` over the records, one after another. */
  function Fold(one: Step, e: Entries, ws: seq<Wallpaper>): (b: Batch)
    ensures |b.statuses| == |ws|
    decreases |ws|
  {
    if |ws| == 0 then Batch(e, [])
    else
      var b := Fold(one, e, ws[..|ws| - 1]);
      var d := one(b.entries, ws[|ws| - 1]);
      Batch(d.entries, b.statuses + [d.status])
  }

  /** When every step changes only its own record's names, names that no record
      touches keep their entries through the whole fold. */
  lemma {:induction false} FoldFrame(one: Step, e: Entries, ws: seq<Wallpaper>)
    requires forall e0: Entries, w: Wallpaper :: SameExcept(e0, one(e0, w).entries, Touched(w))
    ensures forall name :: !TouchedBy(ws, name) ==> SameAt(e, Fold(one, e, ws).entries, name)
    decreases |ws|
  {
    if |ws| > 0 {
      var n := |ws| - 1;
      var b := Fold(one, e, ws[..n]);
      var d := one(b.entries, ws[n]);
      FoldFrame(one, e, ws[..n]);
      forall name | !TouchedBy(ws, name)
        ensures SameAt(e, d.entries, name)
      {
        forall j | 0 <= j < n
          ensures name !in Touched(ws[..n][j])
        {
          assert ws[..n][j] == ws[j];
        }
        assert !TouchedBy(ws[..n], name);
        assert SameAt(e, b.entries, name);
        assert name !in Touched(ws[n]);
        assert SameAt(b.entries, d.entries, name);
      }
    }
  }

  /** The statuses of a prefix of the records are the prefix of the statuses. */
  lemma {:induction false} FoldPrefix(one: Step, e: Entries, ws: seq<Wallpaper>, m: nat)
    requires m <= |ws|
    ensures Fold(one, e, ws[..m]).statuses == Fold(one, e, ws).statuses[..m]
    decreases |ws| - m
  {
    if m < |ws| {
      var n := |ws| - 1;
      var b := Fold(one, e, ws[..n]);
      var d := one(b.entries, ws[n]);
      assert Fold(one, e, ws).statuses == b.statuses + [d.status];
      assert (b.statuses + [d.status])[..n] == b.statuses;
      FoldPrefix(one, e, ws[..n], m);
      assert ws[..n][..m] == ws[..m];
    } else {
      assert ws[..m] == ws;
    }
  }

  /** Another record's download never touches this record's destination: file names are
      distinct and a staging name is never a record file name. */
  lemma OthersLeaveDestination(ws: seq<Wallpaper>, i: int)
    requires forall k :: 0 <= k < |ws| ==> WellFormed(ws[k])
    requires DistinctFilenames(ws)
    requires 0 <= i < |ws|
    ensures !TouchedBy(ws[..i], ws[i].filename)
  {
    if TouchedBy(ws[..i], ws[i].filename) {
      var j :| 0 <= j < i && ws[i].filename in Touched(ws[..i][j]);
      assert ws[..i][j] == ws[j];
      StagingMatchesPaths(ws[j]);
      StagingNeverFilename(ws[j], ws[i]);
    }
  }

  /** When steps change only their own names and a step's status depends only on
      the entry at its destination, record i of a fold over records with distinct
      file names gets the status it would get against the starting directory. */
  lemma FoldStatusIndependent(one: Step, e: Entries, ws: seq<Wallpaper>, i: nat)
    requires forall e0: Entries, w: Wallpaper :: SameExcept(e0, one(e0, w).entries, Touched(w))
    requires forall e1: Entries, e2: Entries, w: Wallpaper ::
      SameAt(e1, e2, w.filename) ==> one(e1, w).status == one(e2, w).status
    requires forall k :: 0 <= k < |ws| ==> WellFormed(ws[k])
    requires DistinctFilenames(ws)
    requires i < |ws|
    ensures Fold(one, e, ws).statuses[i] == one(e, ws[i]).status
  {
    FoldStatusAt(one, e, ws, i);
    FoldKeepsDestination(one, e, ws, i);
    var b := Fold(one, e, ws[..i]);
    assert one(b.entries, ws[i]).status == one(e, ws[i]).status;
  }

  /** Record i's status is its step against the directory the earlier records left. */
  lemma FoldStatusAt(one: Step, e: Entries, ws: seq<Wallpaper>, i: nat)
    requires i < |ws|
    ensures Fold(one, e, ws).statuses[i] == one(Fold(one, e, ws[..i]).entries, ws[i]).status
  {
    FoldPrefix(one, e, ws, i + 1);
    var pre := ws[..i + 1];
    assert pre[..i] == ws[..i];
  }

  /** The earlier records leave record i's destination as it was at the start. */
  lemma FoldKeepsDestination(one: Step, e: Entries, ws: seq<Wallpaper>, i: nat)
    requires forall e0: Entries, w: Wallpaper :: SameExcept(e0, one(e0, w).entries, Touched(w))
    requires forall k :: 0 <= k < |ws| ==> WellFormed(ws[k])
    requires DistinctFilenames(ws)
    requires i < |ws|
    ensures SameAt(Fold(one, e, ws[..i]).entries, e, ws[i].filename)
  {
    FoldFrame(one, e, ws[..i]);
    OthersLeaveDestination(ws, i);
  }

  /** A skip, or a download of a non-empty file. */
  predicate CleanStatus(s: Status) {
    s.Skipped? || (s.Downloaded? && s.size > 0)
  }

  /** Every status is a skip or a download of a non-empty file. */
  predicate Clean(ss: seq<Status>) {
    forall i :: 0 <= i < |ss| ==> CleanStatus(ss[i])
  }

  lemma CleanPrefix(ss: seq<Status>, n: nat)
    requires Clean(ss) && n <= |ss|
    ensures Clean(ss[..n])
  {
    assert forall i :: 0 <= i < n ==> ss[..n][i] == ss[i];
  }

  /** Records with pairwise distinct file names. */
  predicate DistinctFilenames(ws: seq<Wallpaper>) {
    forall i, j :: 0 <= i < j < |ws| ==> ws[i].filename != ws[j].filename
  }

  /** A prefix of well-formed records with distinct file names is one too. */
  lemma PrefixDistinct(ws: seq<Wallpaper>, n: nat)
    requires forall k :: 0 <= k < |ws| ==> WellFormed(ws[k])
    requires DistinctFilenames(ws)
    requires n <= |ws|
    ensures forall k :: 0 <= k < n ==> WellFormed(ws[..n][k])
    ensures DistinctFilenames(ws[..n])
  {
    assert forall k :: 0 <= k < n ==> ws[..n][k] == ws[k];
  }

  /** Every record's destination is occupied. */
  predicate AllPresent(e: Entries, ws: seq<Wallpaper>) {
    forall i :: 0 <= i < |ws| ==> Occupied(e, ws[i].filename)
  }

  /** A record's download never touches another record's destination. */
  lemma OtherNotTouched(a: Wallpaper, b: Wallpaper)
    requires WellFormed(b)
    requires a.filename != b.filename
    ensures b.filename !in Touched(a)
  {
    StagingMatchesPaths(a);
    StagingNeverFilename(a, b);
  }

  /** A change confined to the last record's names leaves the earlier destinations. */
  lemma OthersUntouched(before: Entries, after: Entries, ws: seq<Wallpaper>)
    requires forall k :: 0 <= k < |ws| ==> WellFormed(ws[k])
    requires DistinctFilenames(ws)
    requires |ws| > 0
    requires SameExcept(before, after, Touched(ws[|ws| - 1]))
    ensures forall i :: 0 <= i < |ws| - 1 ==> SameAt(before, after, ws[i].filename)
  {
    var n := |ws| - 1;
    forall i | 0 <= i < n
      ensures SameAt(before, after, ws[i].filename)
    {
      assert ws[i].filename != ws[n].filename;
      OtherNotTouched(ws[n], ws[i]);
    }
  }

  /** Destinations that a step leaves alone stay occupied. */
  lemma ExtendPresent(before: Entries, after: Entries, ws: seq<Wallpaper>)
    requires |ws| > 0
    requires AllPresent(before, ws[..|ws| - 1])
    requires forall i :: 0 <= i < |ws| - 1 ==> SameAt(before, after, ws[i].filename)
    requires Occupied(after, ws[|ws| - 1].filename)
    ensures AllPresent(after, ws)
  {
    forall i | 0 <= i < |ws| - 1
      ensures Occupied(after, ws[i].filename)
    {
      assert ws[..|ws| - 1][i] == ws[i];
    }
  }

  /** When steps change only their own names and a clean step leaves its destination
      occupied, a clean fold over records with distinct file names leaves every
      destination occupied. */
  lemma {:induction false} FoldAllPresent(one: Step, e: Entries, ws: seq<Wallpaper>)
    requires forall e0: Entries, w: Wallpaper :: SameExcept(e0, one(e0, w).entries, Touched(w))
    requires forall e0: Entries, w: Wallpaper ::
      CleanStatus(one(e0, w).status) ==> Occupied(one(e0, w).entries, w.filename)
    requires forall k :: 0 <= k < |ws| ==> WellFormed(ws[k])
    requires DistinctFilenames(ws)
    requires Clean(Fold(one, e, ws).statuses)
    ensures AllPresent(Fold(one, e, ws).entries, ws)
    decreases |ws|
  {
    if |ws| > 0 {
      var n := |ws| - 1;
      var b := Fold(one, e, ws[..n]);
      var d := one(b.entries, ws[n]);
      var s := Fold(one, e, ws).statuses;
      assert s == b.statuses + [d.status];
      assert s[..n] == b.statuses;
      CleanPrefix(s, n);
      PrefixDistinct(ws, n);
      FoldAllPresent(one, e, ws[..n]);
      assert CleanStatus(s[n]);
      OthersUntouched(b.entries, d.entries, ws);
      ExtendPresent(b.entries, d.entries, ws);
    }
  }

  /** Every download changes only its own record's names. */
  lemma StepFrame(net: Network)
    ensures forall e0: Entries, w: Wallpaper :: SameExcept(e0, StepOf(net)(e0, w).entries, Touched(w))
  {
    forall e0: Entries, w: Wallpaper
      ensures SameExcept(e0, StepOf(net)(e0, w).entries, Touched(w))
    {
      assert StepOf(net)(e0, w) == DownloadOne(net, e0, w);
    }
  }

  /** A download's status depends only on the entry at its destination. */
  lemma StepStatus(net: Network)
    ensures forall e1: Entries, e2: Entries, w: Wallpaper ::
      SameAt(e1, e2, w.filename) ==> StepOf(net)(e1, w).status == StepOf(net)(e2, w).status
  {
    forall e1: Entries, e2: Entries, w: Wallpaper | SameAt(e1, e2, w.filename)
      ensures StepOf(net)(e1, w).status == StepOf(net)(e2, w).status
    {
      assert StepOf(net)(e1, w) == DownloadOne(net, e1, w);
      assert StepOf(net)(e2, w) == DownloadOne(net, e2, w);
      StatusDependsOnDestination(net, e1, e2, w);
    }
  }

  /** A skip or a non-empty download leaves the destination occupied. */
  lemma StepClean(net: Network)
    ensures forall e0: Entries, w: Wallpaper ::
      CleanStatus(StepOf(net)(e0, w).status) ==> Occupied(StepOf(net)(e0, w).entries, w.filename)
  {
    forall e0: Entries, w: Wallpaper
      ensures CleanStatus(StepOf(net)(e0, w).status) ==> Occupied(StepOf(net)(e0, w).entries, w.filename)
    {
      assert StepOf(net)(e0, w) == DownloadOne(net, e0, w);
    }
  }

  /** The batch of `download_wallpapers`: each record downloaded in list order against
      the directory the earlier ones left. Names no record touches keep their entries. */
  function DownloadAll(net: Network, e: Entries, ws: seq<Wallpaper>): (b: Batch)
    ensures |b.statuses| == |ws|
    ensures forall name :: !TouchedBy(ws, name) ==> SameAt(e, b.entries, name)
  {
    StepFrame(net);
    FoldFrame(StepOf(net), e, ws);
    Fold(StepOf(net), e, ws)
  }

  /** `download_wallpapers`: the batch and its three counters, each the number of
      statuses of its kind; they add up to the number of records, and the failure
      counter is zero exactly when no record failed. */
  function DownloadWallpapers(net: Network, e: Entries, ws: seq<Wallpaper>): (r: (Batch, Tally))
    ensures |r.0.statuses| == |ws|
    ensures r.1.downloaded == |Where(r.0.statuses, (s: Status) => s.Downloaded?)|
    ensures r.1.skipped == |Where(r.0.statuses, (s: Status) => s.Skipped?)|
    ensures r.1.failed == |Where(r.0.statuses, (s: Status) => s.Failed?)|
    ensures r.1.downloaded + r.1.skipped + r.1.failed == |ws|
    ensures r.1.failed == 0 <==> forall i :: 0 <= i < |ws| ==> !r.0.statuses[i].Failed?
  {
    var b := DownloadAll(net, e, ws);
    (b, TallyOf(b.statuses))
  }

  /** Each record's status is what it would be against the starting directory alone, so
      the counters do not depend on the order in which the pool finishes the records. */
  lemma BatchIndependent(net: Network, e: Entries, ws: seq<Wallpaper>)
    requires forall k :: 0 <= k < |ws| ==> WellFormed(ws[k])
    requires DistinctFilenames(ws)
    ensures forall i :: 0 <= i < |ws| ==> DownloadAll(net, e, ws).statuses[i] == DownloadOne(net, e, ws[i]).status
  {
    StepFrame(net);
    StepStatus(net);
    forall i | 0 <= i < |ws|
      ensures DownloadAll(net, e, ws).statuses[i] == DownloadOne(net, e, ws[i]).status
    {
      FoldStatusIndependent(StepOf(net), e, ws, i);
      assert StepOf(net)(e, ws[i]) == DownloadOne(net, e, ws[i]);
    }
  }

  /** `download_one` as written and corrected make the same requests and report the
      same status; their directories differ at most in the record's staging name. */
  lemma SameOutcomeAsWritten(net: Network, e: Entries, w: Wallpaper)
    ensures var a, c := DownloadOneAsWritten(net, e, w), DownloadOne(net, e, w);
      && a.status == c.status && a.attempts == c.attempts && a.sleeps == c.sleeps
      && forall name :: name != Staging(w) ==> SameAt(a.entries, c.entries, name)
  {
    var a, c := DownloadOneAsWritten(net, e, w), DownloadOne(net, e, w);
    if !Occupied(e, w.filename) {
      AttemptsFollowRetry(net, e, w, false, 1, Retry.InitialDelay, []);
      AttemptsFollowRetry(net, e, w, true, 1, Retry.InitialDelay, []);
    }
    assert a.status == c.status;
    forall name | name != Staging(w)
      ensures SameAt(a.entries, c.entries, name)
    {
      if name != w.filename {
        assert name !in Touched(w);
        assert SameAt(e, a.entries, name) && SameAt(e, c.entries, name);
      }
    }
  }

  /** The step `download_wallpapers` takes for each record, as written. */
  function StepAsWritten(net: Network): Step {
    (e: Entries, w: Wallpaper) => DownloadOneAsWritten(net, e, w)
  }

  /** The batch of `download_wallpapers` over `download_one` as written. Names no record
      touches keep their entries. */
  function DownloadAllAsWritten(net: Network, e: Entries, ws: seq<Wallpaper>): (b: Batch)
    ensures |b.statuses| == |ws|
    ensures forall name :: !TouchedBy(ws, name) ==> SameAt(e, b.entries, name)
  {
    assert forall e0: Entries, w: Wallpaper :: SameExcept(e0, StepAsWritten(net)(e0, w).entries, Touched(w)) by {
      forall e0: Entries, w: Wallpaper
        ensures SameExcept(e0, StepAsWritten(net)(e0, w).entries, Touched(w))
      {
        assert StepAsWritten(net)(e0, w) == DownloadOneAsWritten(net, e0, w);
      }
    }
    FoldFrame(StepAsWritten(net), e, ws);
    Fold(StepAsWritten(net), e, ws)
  }

  /** The as-written batch reports exactly the statuses of the corrected one, so the
      counters are unaffected by the correction; only leftover staging files differ. */
  lemma AsWrittenSameStatuses(net: Network, e: Entries, ws: seq<Wallpaper>)
    requires forall k :: 0 <= k < |ws| ==> WellFormed(ws[k])
    requires DistinctFilenames(ws)
    ensures DownloadAllAsWritten(net, e, ws).statuses == DownloadAll(net, e, ws).statuses
  {
    var one := StepAsWritten(net);
    forall e0: Entries, w: Wallpaper
      ensures SameExcept(e0, one(e0, w).entries, Touched(w))
    {
      assert one(e0, w) == DownloadOneAsWritten(net, e0, w);
    }
    forall e1: Entries, e2: Entries, w: Wallpaper | SameAt(e1, e2, w.filename)
      ensures one(e1, w).status == one(e2, w).status
    {
      assert one(e1, w) == DownloadOneAsWritten(net, e1, w);
      assert one(e2, w) == DownloadOneAsWritten(net, e2, w);
      SameOutcomeAsWritten(net, e1, w);
      SameOutcomeAsWritten(net, e2, w);
      StatusDependsOnDestination(net, e1, e2, w);
    }
    StepFrame(net);
    StepStatus(net);
    var a, c := DownloadAllAsWritten(net, e, ws).statuses, DownloadAll(net, e, ws).statuses;
    forall i | 0 <= i < |ws|
      ensures a[i] == c[i]
    {
      FoldStatusIndependent(one, e, ws, i);
      FoldStatusIndependent(StepOf(net), e, ws, i);
      assert one(e, ws[i]) == DownloadOneAsWritten(net, e, ws[i]);
      assert StepOf(net)(e, ws[i]) == DownloadOne(net, e, ws[i]);
      SameOutcomeAsWritten(net, e, ws[i]);
    }
  }

  /** When no record failed and every transfer delivered a non-empty file, every
      record's destination is occupied after the batch. */
  lemma AllOccupied(net: Network, e: Entries, ws: seq<Wallpaper>)
    requires forall k :: 0 <= k < |ws| ==> WellFormed(ws[k])
    requires DistinctFilenames(ws)
    requires Clean(DownloadAll(net, e, ws).statuses)
    ensures AllPresent(DownloadAll(net, e, ws).entries, ws)
  {
    StepFrame(net);
    StepClean(net);
    FoldAllPresent(StepOf(net), e, ws);
  }

  /** Idempotence: when no record of a batch failed and every transfer delivered a
      non-empty file, every destination is occupied afterwards, so a second run skips
      every record without a network call, whatever the network would answer. */
  lemma SecondRunSkips(net: Network, net2: Network, e: Entries, ws: seq<Wallpaper>)
    requires forall k :: 0 <= k < |ws| ==> WellFormed(ws[k])
    requires DistinctFilenames(ws)
    requires Clean(DownloadAll(net, e, ws).statuses)
    ensures forall i :: 0 <= i < |ws| ==>
      var d := DownloadOne(net2, DownloadAll(net, e, ws).entries, ws[i]);
      d.status == Skipped && d.attempts == 0
  {
    AllOccupied(net, e, ws);
    var after := DownloadAll(net, e, ws).entries;
    forall i | 0 <= i < |ws|
      ensures DownloadOne(net2, after, ws[i]).status == Skipped && DownloadOne(net2, after, ws[i]).attempts == 0
    {
      assert Occupied(after, ws[i].filename);
    }
  }
}

=== FILE: fs.dfy ===
/** The image directory as the sync script sees it: entry names mapped to what `stat`
    reports for them. */
module Fs {

  /** A regular file, a sub-directory, or any other node `is_file()` rejects (a socket,
      a FIFO, ...); each has the size `stat().st_size` reports. */
  datatype Node = Regular(size: nat) | Directory(size: nat) | Special(size: nat)

  /** The immediate entries of one directory, by name. */
  type Entries = map<string, Node>

  /** `path.exists() and path.stat().st_size > 0`. */
  predicate Occupied(e: Entries, name: string) {
    name in e && e[name].size > 0
  }

  /** `name` is a sub-directory: `os.replace` of a file onto it fails. */
  predicate IsDirectory(e: Entries, name: string) {
    name in e && e[name].Directory?
  }

  /** `e2` agrees with `e1` on `name`: both lack it or both hold the same node. */
  predicate SameAt(e1: Entries, e2: Entries, name: string) {
    (name in e1 <==> name in e2) && (name in e1 ==> e1[name] == e2[name])
  }

  /** `e2` agrees with `e1` everywhere except possibly on the names in `touched`. */
  ghost predicate SameExcept(e1: Entries, e2: Entries, touched: set<string>) {
    forall name :: name !in touched ==> SameAt(e1, e2, name)
  }
}

=== FILE: lex.dfy ===
/** The ordering Python's `<` puts on `str` values, which `sorted(..., key=id)` uses:
    code points compared left to right, a proper prefix sorting first. */
module Lex {

  predicate Less(a: string, b: string)
    decreases |a|
  {
    if |a| == 0 then |b| > 0
    else if |b| == 0 then false
    else if a[0] != b[0] then a[0] < b[0]
    else Less(a[1..], b[1..])
  }

  /** `a` is a proper prefix of `b`. */
  predicate ProperPrefix(a: string, b: string) {
    |a| < |b| && a == b[..|a|]
  }

  /** `a` and `b` agree before position `i`, where `a` holds the smaller character. */
  predicate LowerAt(a: string, b: string, i: int) {
    0 <= i < |a| && i < |b| && a[..i] == b[..i] && a[i] < b[i]
  }

  lemma ShiftPrefix(a: string, b: string)
    requires |a| > 0 && |b| > 0 && a[0] == b[0]
    ensures ProperPrefix(a, b) <==> ProperPrefix(a[1..], b[1..])
  {
    if ProperPrefix(a[1..], b[1..]) {
      assert a == [a[0]] + a[1..];
      assert b[..|a|] == [b[0]] + b[1..][..|a| - 1];
    }
  }

  lemma ShiftLowerAt(a: string, b: string, i: nat)
    requires |a| > 0 && |b| > 0 && a[0] == b[0]
    ensures LowerAt(a, b, i + 1) <==> LowerAt(a[1..], b[1..], i)
    ensures !LowerAt(a, b, 0)
  {
    if i + 1 < |a| && i + 1 < |b| {
      assert a[..i + 1] == [a[0]] + a[1..][..i];
      assert b[..i + 1] == [b[0]] + b[1..][..i];
    }
  }

  lemma FirstDiffers(a: string, b: string, i: nat)
    requires |a| > 0 && |b| > 0 && a[0] != b[0]
    ensures !ProperPrefix(a, b)
    ensures LowerAt(a, b, i) <==> i == 0 && a[0] < b[0]
  {
  }

  /** The textbook reading of the order: `a` is a proper prefix of `b`, or the two agree
      up to some position where `a` holds the smaller character. */
  lemma {:induction false} LessIffFirstDifference(a: string, b: string)
    ensures Less(a, b) <==> ProperPrefix(a, b) || exists i :: LowerAt(a, b, i)
    decreases |a|
  {
    if |a| > 0 && |b| > 0 {
      if a[0] == b[0] {
        LessIffFirstDifference(a[1..], b[1..]);
        ShiftPrefix(a, b);
        if exists i :: LowerAt(a, b, i) {
          var i :| LowerAt(a, b, i);
          ShiftLowerAt(a, b, 0);
          ShiftLowerAt(a, b, i - 1);
        }
        if exists j :: LowerAt(a[1..], b[1..], j) {
          var j :| LowerAt(a[1..], b[1..], j);
          ShiftLowerAt(a, b, j);
        }
      } else {
        FirstDiffers(a, b, 0);
        if exists i :: LowerAt(a, b, i) {
          var i :| LowerAt(a, b, i);
          FirstDiffers(a, b, i);
        }
      }
    } else if |a| == 0 && |b| > 0 {
      assert a == b[..0];
    }
  }

  lemma {:induction false} Irreflexive(a: string)
    ensures !Less(a, a)
    decreases |a|
  {
    if |a| > 0 {
      Irreflexive(a[1..]);
    }
  }

  lemma {:induction false} Asymmetric(a: string, b: string)
    requires Less(a, b)
    ensures !Less(b, a)
    decreases |a|
  {
    if |a| > 0 && |b| > 0 && a[0] == b[0] {
      Asymmetric(a[1..], b[1..]);
    }
  }

  lemma {:induction false} Transitive(a: string, b: string, c: string)
    requires Less(a, b) && Less(b, c)
    ensures Less(a, c)
    decreases |a|
  {
    if |a| > 0 && |b| > 0 && |c| > 0 && a[0] == b[0] && b[0] == c[0] {
      Transitive(a[1..], b[1..], c[1..]);
    }
  }

  /** Distinct strings are always ordered one way or the other. */
  lemma {:induction false} Total(a: string, b: string)
    ensures a == b || Less(a, b) || Less(b, a)
    decreases |a|
  {
    if |a| > 0 && |b| > 0 && a[0] == b[0] {
      Total(a[1..], b[1..]);
      if a[1..] == b[1..] {
        assert a == [a[0]] + a[1..] && b == [b[0]] + b[1..];
      }
    }
  }
}

=== FILE: manifest.dfy ===
/** `write_manifest`: the tab-separated manifest as a sequence of lines (each written
    with a trailing newline), and a reader that recovers the records from it. */
module Manifest {
  import opened Wrappers
  import opened Records
  import Text

  const Tab: char := '\t'

  /** The first line of every manifest. */
  const Header: string := "id\twidth\theight\text\tfilename\turl"

  /** The six columns of a record's row, in header order. */
  function Fields(w: Wallpaper): seq<string> {
    [w.id, Text.IntToString(w.width), Text.IntToString(w.height), w.ext, w.filename, w.url]
  }

  /** One manifest row: the fields joined by tabs. */
  function Row(w: Wallpaper): string {
    Text.Join(Fields(w), Tab)
  }

  /** The rows of `ws`: one per record, in list order. */
  function Rows(ws: seq<Wallpaper>): (r: seq<string>)
    ensures |r| == |ws|
    ensures forall i :: 0 <= i < |ws| ==> r[i] == Row(ws[i])
    decreases |ws|
  {
    if |ws| == 0 then [] else Rows(ws[..|ws| - 1]) + [Row(ws[|ws| - 1])]
  }

  /** The manifest lines for `ws`: the header, then one row per record in list order. */
  function Lines(ws: seq<Wallpaper>): (r: seq<string>)
    ensures |r| == |ws| + 1
    ensures r[0] == Header
    ensures forall i :: 0 <= i < |ws| ==> r[i + 1] == Row(ws[i])
  {
    [Header] + Rows(ws)
  }

  /** Reads one row back: six tab-separated columns with integer width and height. */
  function ParseRow(line: string): Option<Wallpaper> {
    var f := Text.Split(line, Tab);
    if |f| != 6 then None
    else
      match (Text.ParseInt(f[1]), Text.ParseInt(f[2]))
      case (Some(width), Some(height)) => Some(Wallpaper(f[0], width, height, f[5], f[3], f[4]))
      case _ => None
  }

  /** Reads a whole manifest back: the header, then rows until the end. */
  function ParseLines(lines: seq<string>): Option<seq<Wallpaper>> {
    if |lines| == 0 || lines[0] != Header then None
    else ParseRows(lines[1..])
  }

  function ParseRows(rows: seq<string>): Option<seq<Wallpaper>>
    decreases |rows|
  {
    if |rows| == 0 then Some([])
    else
      match (ParseRows(rows[..|rows| - 1]), ParseRow(rows[|rows| - 1]))
      case (Some(ws), Some(w)) => Some(ws + [w])
      case _ => None
  }

  /** The columns a record writes hold no tab, so its row splits back cleanly. */
  predicate TabFree(w: Wallpaper) {
    Tab !in w.id && Tab !in w.url
  }

  /** A well-formed record whose id and url contain no tab is recovered exactly from
      its row. */
  lemma RowRoundTrip(w: Wallpaper)
    requires WellFormed(w) && TabFree(w)
    ensures ParseRow(Row(w)) == Some(w)
  {
    Text.IntToStringAvoids(w.width, Tab);
    Text.IntToStringAvoids(w.height, Tab);
    assert Tab !in w.ext;
    assert w.filename == "wh-" + w.id + w.ext;
    assert Tab !in w.filename by {
      forall k | 0 <= k < |w.filename|
        ensures w.filename[k] != Tab
      {
        if k < 3 {
        } else if k < 3 + |w.id| {
          assert w.filename[k] == w.id[k - 3];
        } else {
          assert w.filename[k] == w.ext[k - 3 - |w.id|];
        }
      }
    }
    var f := Fields(w);
    Text.SplitJoin(f, Tab);
    Text.ParseIntRoundTrip(w.width);
    Text.ParseIntRoundTrip(w.height);
  }

  /** Reading the manifest back gives the records it was written from, in order: one
      row per record, no more and no less. */
  lemma LinesRoundTrip(ws: seq<Wallpaper>)
    requires forall i :: 0 <= i < |ws| ==> WellFormed(ws[i]) && TabFree(ws[i])
    ensures ParseLines(Lines(ws)) == Some(ws)
  {
    RowsRoundTrip(ws);
    assert Lines(ws)[1..] == Rows(ws);
  }

  lemma RowsRoundTrip(ws: seq<Wallpaper>)
    requires forall i :: 0 <= i < |ws| ==> WellFormed(ws[i]) && TabFree(ws[i])
    ensures ParseRows(Rows(ws)) == Some(ws)
  {
    var rows := Rows(ws);
    forall i | 0 <= i < |ws|
      ensures ParseRow(rows[i]) == Some(ws[i])
    {
      RowRoundTrip(ws[i]);
    }
    ParseRowsEach(rows, ws);
  }

  /** Rows that each read back as the corresponding record read back as the whole list. */
  lemma {:induction false} ParseRowsEach(rows: seq<string>, ws: seq<Wallpaper>)
    requires |rows| == |ws|
    requires forall i :: 0 <= i < |rows| ==> ParseRow(rows[i]) == Some(ws[i])
    ensures ParseRows(rows) == Some(ws)
    decreases |rows|
  {
    if |rows| > 0 {
      var n := |rows| - 1;
      assert forall i :: 0 <= i < n ==> rows[..n][i] == rows[i] && ws[..n][i] == ws[i];
      ParseRowsEach(rows[..n], ws[..n]);
      assert ws == ws[..n] + [ws[n]];
    }
  }

  lemma RenderExampleNumbers()
    ensures Text.IntToString(1920) == "1920" && Text.IntToString(1080) == "1080"
  {
    assert Text.NatToString(1) == "1" && Text.NatToString(19) == "19";
    assert Text.NatToString(192) == "192" && Text.NatToString(1920) == "1920";
    assert Text.NatToString(10) == "10" && Text.NatToString(108) == "108";
    assert Text.NatToString(1080) == "1080";
  }

  /** Example: a single 1920x1080 PNG record gives the header and one row
      holding its six columns. */
  lemma LinesExample(u: string)
    ensures var w := Wallpaper("abc", 1920, 1080, u, ".png", "wh-abc.png");
      Lines([w]) == [Header, "abc\t1920\t1080\t.png\twh-abc.png\t" + u]
  {
    var w := Wallpaper("abc", 1920, 1080, u, ".png", "wh-abc.png");
    assert Row(w) == "abc\t1920\t1080\t.png\twh-abc.png\t" + u by {
      RenderExampleNumbers();
      assert Fields(w) == ["abc", "1920", "1080", ".png", "wh-abc.png", u];
      JoinExample(u);
    }
    assert Rows([w]) == [Row(w)];
  }

  lemma JoinCons(p: string, rest: seq<string>)
    requires |rest| >= 1
    ensures Text.Join([p] + rest, Tab) == p + [Tab] + Text.Join(rest, Tab)
  {
    assert ([p] + rest)[1..] == rest;
  }

  lemma JoinExample(u: string)
    ensures Text.Join(["abc", "1920", "1080", ".png", "wh-abc.png", u], Tab) == "abc\t1920\t1080\t.png\twh-abc.png\t" + u
  {
    JoinSix("abc", "1920", "1080", ".png", "wh-abc.png", u);
  }

  /** A six-column row spelled out. */
  lemma JoinSix(a: string, b: string, c: string, d: string, e: string, f: string)
    ensures Text.Join([a, b, c, d, e, f], Tab) == a + [Tab] + b + [Tab] + c + [Tab] + d + [Tab] + e + [Tab] + f
  {
    JoinCons(e, [f]);
    JoinCons(d, [e, f]);
    JoinCons(c, [d, e, f]);
    JoinCons(b, [c, d, e, f]);
    JoinCons(a, [b, c, d, e, f]);
    assert [a] + [b, c, d, e, f] == [a, b, c, d, e, f];
  }
}

=== FILE: paths.dfy ===
/** The parts of `pathlib.PurePosixPath` the sync script relies on: `.name`, `.suffix`
    and `.with_suffix(...)`. */
module Paths {
  import Text

  /** The last component that pathlib keeps: empty components (doubled or trailing
      slashes) and "." components are dropped. */
  function LastNamed(parts: seq<string>): (r: string)
    requires forall k :: 0 <= k < |parts| ==> '/' !in parts[k]
    ensures '/' !in r
    ensures r != "" ==> r in parts && r != "."
  {
    if |parts| == 0 then ""
    else if parts[|parts| - 1] != "" && parts[|parts| - 1] != "." then parts[|parts| - 1]
    else LastNamed(parts[..|parts| - 1])
  }

  /** `PurePosixPath(p).name`. */
  function Name(p: string): (r: string)
    ensures '/' !in r
    ensures r != "."
  {
    LastNamed(Text.Split(p, '/'))
  }

  /** Splitting after a final separator adds exactly one last piece. */
  lemma {:induction false} SplitAppend(p: string, sep: char, n: string)
    requires sep !in n
    ensures Text.Split(p + [sep] + n, sep) == Text.Split(p, sep) + [n]
    decreases |p|
  {
    if sep !in p {
      Text.SplitFirst(p, sep, n);
      assert Text.Split(n, sep) == [n];
    } else {
      var i := Text.IndexOf(p, sep);
      var head, tail := p[..i], p[i + 1..];
      var rest := tail + [sep] + n;
      assert p == head + [sep] + tail;
      assert p + [sep] + n == head + [sep] + rest;
      Text.SplitFirst(head, sep, rest);
      Text.SplitFirst(head, sep, tail);
      SplitAppend(tail, sep, n);
      assert [head] + (Text.Split(tail, sep) + [n]) == [head] + Text.Split(tail, sep) + [n];
    }
  }

  /** Joining a directory and a plain file name gives a path whose name is that file
      name, and a trailing slash does not change a path's name. */
  lemma NameOfJoin(dir: string, n: string)
    requires '/' !in n && n != "" && n != "."
    ensures Name(dir + "/" + n) == n
    ensures Name(dir + "/") == Name(dir)
  {
    SplitAppend(dir, '/', n);
    SplitAppend(dir, '/', "");
    assert dir + "/" + n == dir + ['/'] + n;
    assert dir + "/" == dir + ['/'] + "";
    var parts := Text.Split(dir, '/');
    assert (parts + [""])[..|parts|] == parts;
    assert LastNamed(parts + [""]) == LastNamed(parts);
  }

  /** `str.rfind('.')`: the position of the last dot, -1 when there is none. */
  function LastDot(name: string): (r: int)
    ensures -1 <= r < |name|
    ensures r >= 0 ==> name[r] == '.'
    ensures forall k :: r < k < |name| ==> name[k] != '.'
  {
    if |name| == 0 then -1
    else if name[|name| - 1] == '.' then |name| - 1
    else LastDot(name[..|name| - 1])
  }

  /** A dot with no dot after it is the last dot. */
  lemma LastDotUnique(name: string, j: int)
    requires 0 <= j < |name| && name[j] == '.' && '.' !in name[j + 1..]
    ensures LastDot(name) == j
  {
  }

  /** `PurePath.suffix` of a final component: from the last dot to the end, empty when
      there is no dot, when the only candidate dot is the first character, or when the
      name ends with its last dot. */
  function Suffix(name: string): (r: string)
    ensures r != "" <==> exists i :: 0 < i < |name| - 1 && name[i] == '.' && '.' !in name[i + 1..]
    ensures r != "" ==> 2 <= |r| < |name| && r == name[|name| - |r|..] && r[0] == '.' && '.' !in r[1..]
  {
    var i := LastDot(name);
    assert forall j :: 0 < j < |name| - 1 && name[j] == '.' && '.' !in name[j + 1..] ==> j == i by {
      forall j | 0 < j < |name| - 1 && name[j] == '.' && '.' !in name[j + 1..]
        ensures j == i
      {
        LastDotUnique(name, j);
      }
    }
    if 0 < i < |name| - 1 then
      assert name[i..][1..] == name[i + 1..];
      name[i..]
    else ""
  }

  /** `PurePath.with_suffix(s)` on a final component: the current suffix replaced by `s`. */
  function WithSuffix(name: string, s: string): string {
    name[..|name| - |Suffix(name)|] + s
  }

  /** The staging name `dst.with_suffix(dst.suffix + ".part")` used while a download is
      in flight: whatever the name, it is the name with ".part" appended. */
  function StagingName(name: string): (r: string)
    ensures r == name + ".part"
  {
    var s := Suffix(name);
    assert name[..|name| - |s|] + s == name;
    WithSuffix(name, s + ".part")
  }
}

=== FILE: prune.dfy ===
/** `prune_non_manifest_images`: removal of the regular files of the image directory
    whose names no record of the manifest uses. */
module Prune {
  import opened Fs
  import opened Records

  /** The image directory, which may not exist yet. */
  datatype ImagesDir = Missing | Present(entries: Entries)

  /** `{wp.filename for wp in wallpapers}`. */
  function KeepNames(ws: seq<Wallpaper>): (r: set<string>)
    ensures forall name :: name in r <==> exists i :: 0 <= i < |ws| && ws[i].filename == name
  {
    set i | 0 <= i < |ws| :: ws[i].filename
  }

  /** A regular file whose name is not kept: what the loop deletes. */
  predicate Doomed(e: Entries, keep: set<string>, name: string) {
    name in e && e[name].Regular? && name !in keep
  }

  /** The names the loop deletes. */
  function DoomedNames(e: Entries, keep: set<string>): set<string> {
    set name | name in e.Keys && Doomed(e, keep, name)
  }

  /** The directory the loop leaves: every entry except the doomed files. */
  function Pruned(e: Entries, keep: set<string>): (r: Entries)
    ensures forall name :: name in r <==> name in e && !Doomed(e, keep, name)
    ensures forall name :: name in r ==> r[name] == e[name]
  {
    map name | name in e.Keys && !Doomed(e, keep, name) :: e[name]
  }

  /** The entries split into the doomed files and the ones that stay. */
  lemma PrunedCount(e: Entries, keep: set<string>)
    ensures |e.Keys| == |Pruned(e, keep).Keys| + |DoomedNames(e, keep)|
  {
    var stay := Pruned(e, keep).Keys;
    var gone := DoomedNames(e, keep);
    assert e.Keys == stay + gone;
    assert stay * gone == {};
  }

  /** `prune_non_manifest_images`: a missing directory is left missing and nothing is
      counted; otherwise every regular file whose name is not a record's file name is
      removed, directories and kept files stay untouched, and the count returned is the
      number of files removed. */
  method PruneImages(dir: ImagesDir, ws: seq<Wallpaper>) returns (after: ImagesDir, removed: nat)
    ensures dir.Missing? ==> after == Missing && removed == 0
    ensures dir.Present? ==>
      && after == Present(Pruned(dir.entries, KeepNames(ws)))
      && removed == |DoomedNames(dir.entries, KeepNames(ws))|
  {
    if dir.Missing? {
      return Missing, 0;
    }
    var keep := KeepNames(ws);
    var start := dir.entries;
    var e := start;
    var rest := start.Keys;
    removed := 0;
    while rest != {}
      invariant rest <= start.Keys
      invariant forall name :: name in e <==> name in start && (name in rest || !Doomed(start, keep, name))
      invariant forall name :: name in e ==> e[name] == start[name]
      invariant |e.Keys| + removed == |start.Keys|
      decreases rest
    {
      var name :| name in rest;
      if start[name].Regular? && name !in keep {
        assert name in e;
        assert (e - {name}).Keys == e.Keys - {name};
        e := e - {name};
        removed := removed + 1;
      }
      rest := rest - {name};
    }
    assert e == Pruned(start, keep);
    PrunedCount(start, keep);
    after := Present(e);
  }

  /** Example: with a.jpg, b.jpg and c.jpg present and records for a.jpg and
      c.jpg, only b.jpg is doomed, and one file is removed. */
  lemma PruneExample(a: Wallpaper, c: Wallpaper)
    requires a.filename == "a.jpg" && c.filename == "c.jpg"
    ensures var e: Entries := map["a.jpg" := Regular(10), "b.jpg" := Regular(20), "c.jpg" := Regular(30)];
      && KeepNames([a, c]) == {"a.jpg", "c.jpg"}
      && Pruned(e, KeepNames([a, c])) == map["a.jpg" := Regular(10), "c.jpg" := Regular(30)]
      && DoomedNames(e, KeepNames([a, c])) == {"b.jpg"}
      && |DoomedNames(e, KeepNames([a, c]))| == 1
  {
    var keep := KeepNames([a, c]);
    assert [a, c][0] == a && [a, c][1] == c;
    assert keep == {"a.jpg", "c.jpg"};
  }
}

=== FILE: records.dfy ===
/** Wallpaper records and the acceptance rules: `Wallpaper`, `FilterConfig`,
    `normalize_item`, `keep_wallpaper` and the filter clamp/validation done at startup. */
module Records {
  import opened Wrappers
  import Text
  import Paths

  /** One item of a search page's `data` array, already decoded: a missing `id` or
      `path` reads as "", a missing or empty dimension as 0. */
  datatype RawItem = RawItem(id: string, path: string, width: int, height: int)

  /** A normalised search result. */
  datatype Wallpaper = Wallpaper(id: string, width: int, height: int, url: string, ext: string, filename: string)

  /** Acceptance thresholds; aspect ratios are width divided by height. */
  datatype FilterConfig = FilterConfig(minWidth: int, minHeight: int, minAspect: real, maxAspect: real)

  /** Image suffixes the sync keeps, lower-cased and with their dot. */
  const AllowedExts: set<string> := {".jpg", ".jpeg", ".png", ".webp"}

  /** Local file name of a record: "wh-", then the id, then the suffix. */
  function MakeFilename(id: string, ext: string): string {
    "wh-" + id + ext
  }

  /** What every normalised record satisfies. */
  predicate WellFormed(w: Wallpaper) {
    && w.id != ""
    && w.url != ""
    && w.ext in AllowedExts
    && w.filename == MakeFilename(w.id, w.ext)
  }

  /** `Path(url).suffix.lower()`. */
  function Extension(url: string): string {
    Text.Lower(Paths.Suffix(Paths.Name(url)))
  }

  /** `normalize_item`: the record built from an item whose stripped id and stripped
      path are non-empty and whose path has an allowed suffix. */
  function Normalize(item: RawItem): (r: Option<Wallpaper>)
    ensures r.Some? ==>
      && WellFormed(r.value)
      && r.value.id == Text.Strip(item.id)
      && r.value.url == Text.Strip(item.path)
      && r.value.ext == Extension(r.value.url)
      && r.value.width == item.width
      && r.value.height == item.height
  {
    var id := Text.Strip(item.id);
    var url := Text.Strip(item.path);
    if id == "" || url == "" then None
    else
      var ext := Extension(url);
      if ext !in AllowedExts then None
      else Some(Wallpaper(id, item.width, item.height, url, ext, MakeFilename(id, ext)))
  }

  /** An item is rejected exactly when its id is blank, its path is blank, or its path's
      lower-cased suffix is not one of the four allowed ones. */
  lemma NormalizeRejects(item: RawItem)
    ensures Normalize(item).None? <==>
      || Text.AllSpace(item.id)
      || Text.AllSpace(item.path)
      || Extension(Text.Strip(item.path)) !in AllowedExts
  {
    Text.StripEmptyIff(item.id);
    Text.StripEmptyIff(item.path);
  }

  predicate EndsWith(s: string, t: string) {
    |t| <= |s| && s[|s| - |t|..] == t
  }

  /** Reads a local file name back into the id and suffix it was built from. */
  function ParseFilename(name: string): Option<(string, string)> {
    if |name| < 3 || name[..3] != "wh-" then None
    else
      var rest := name[3..];
      if EndsWith(rest, ".jpeg") && |rest| > 5 then Some((rest[..|rest| - 5], ".jpeg"))
      else if EndsWith(rest, ".webp") && |rest| > 5 then Some((rest[..|rest| - 5], ".webp"))
      else if EndsWith(rest, ".jpg") && |rest| > 4 then Some((rest[..|rest| - 4], ".jpg"))
      else if EndsWith(rest, ".png") && |rest| > 4 then Some((rest[..|rest| - 4], ".png"))
      else None
  }

  /** The four allowed suffixes differ in their second-to-last character, so a name
      built with one of them ends with no other. */
  lemma EndsWithExt(id: string, ext: string, e: string)
    requires ext in AllowedExts && e in AllowedExts
    ensures EndsWith(id + ext, e) <==> e == ext
  {
    var s := id + ext;
    assert s[|s| - |ext|..] == ext;
    assert s[|s| - 2] == ext[|ext| - 2];
    if EndsWith(s, e) {
      assert s[|s| - 2] == s[|s| - |e|..][|e| - 2] == e[|e| - 2];
    }
  }

  /** A record's file name determines its id and suffix. */
  lemma ParseFilenameRoundTrip(w: Wallpaper)
    requires WellFormed(w)
    ensures ParseFilename(w.filename) == Some((w.id, w.ext))
  {
    var rest := w.id + w.ext;
    assert w.filename == "wh-" + rest;
    assert w.filename[..3] == "wh-" && w.filename[3..] == rest;
    assert rest[..|w.id|] == w.id;
    EndsWithExt(w.id, w.ext, ".jpeg");
    EndsWithExt(w.id, w.ext, ".webp");
    EndsWithExt(w.id, w.ext, ".jpg");
    EndsWithExt(w.id, w.ext, ".png");
  }

  /** Distinct records never share a file name unless they share id and suffix. */
  lemma FilenameInjective(a: Wallpaper, b: Wallpaper)
    requires WellFormed(a) && WellFormed(b)
    requires a.filename == b.filename
    ensures a.id == b.id && a.ext == b.ext
  {
    ParseFilenameRoundTrip(a);
    ParseFilenameRoundTrip(b);
  }

  /** A staging name always ends in "t" and a record file name never does, so the two
      kinds of name never collide. */
  lemma StagingNeverFilename(a: Wallpaper, b: Wallpaper)
    requires WellFormed(b)
    ensures Paths.StagingName(a.filename) != b.filename
  {
    var s := Paths.StagingName(a.filename);
    assert s[|s| - 1] == 't';
    assert b.filename[|b.filename| - 1] == b.ext[|b.ext| - 1];
  }

  /** `keep_wallpaper`. */
  function Keep(w: Wallpaper, f: FilterConfig): bool {
    if w.width < f.minWidth || w.height < f.minHeight then false
    else if w.height <= 0 then false
    else
      var ratio := (w.width as real) / (w.height as real);
      !(ratio < f.minAspect || ratio > f.maxAspect)
  }

  /** A record is kept exactly when it meets the minimum width and height, has a
      positive height (even with a zero minimum height) and its aspect ratio lies in the
      inclusive window, stated without division by cross-multiplying. */
  lemma KeepIff(w: Wallpaper, f: FilterConfig)
    ensures Keep(w, f) <==>
      && w.width >= f.minWidth
      && w.height >= f.minHeight
      && w.height > 0
      && f.minAspect * (w.height as real) <= w.width as real <= f.maxAspect * (w.height as real)
  {
    if w.height > 0 {
      RatioBounds(w.width as real, w.height as real, f.minAspect, f.maxAspect);
    }
  }

  lemma RatioBounds(x: real, h: real, lo: real, hi: real)
    requires h > 0.0
    ensures lo <= x / h <==> lo * h <= x
    ensures x / h <= hi <==> x <= hi * h
  {
    var q := x / h;
    assert q * h == x;
    if lo <= q {
      assert lo * h <= q * h;
    }
    if q <= hi {
      assert q * h <= hi * h;
    }
  }

  /** Example: with minimum width 1000 and aspect window [1.0, 3.0], a
      2000x1000 image is kept and a 500x2000 image is dropped. */
  lemma KeepExample()
    ensures var f := FilterConfig(1000, 0, 1.0, 3.0);
      && Keep(Wallpaper("A", 2000, 1000, "u/a.jpg", ".jpg", "wh-A.jpg"), f)
      && !Keep(Wallpaper("B", 500, 2000, "u/b.jpg", ".jpg", "wh-B.jpg"), f)
  {
  }

  /** Why `main` refuses to start. */
  datatype ConfigError = AspectBoundsInverted

  function Max0(x: int): int {
    if x < 0 then 0 else x
  }

  function MaxReal0(x: real): real {
    if x < 0.0 then 0.0 else x
  }

  /** The filter built in `main`: every threshold clamped to at least zero, and a
      fatal error when the clamped maximum aspect is below the clamped minimum. */
  function MakeFilters(minWidth: int, minHeight: int, minAspect: real, maxAspect: real): (r: Result<FilterConfig, ConfigError>)
    ensures r.Failure? <==> MaxReal0(maxAspect) < MaxReal0(minAspect)
    ensures r.Success? ==>
      && 0 <= r.value.minWidth && 0 <= r.value.minHeight
      && 0.0 <= r.value.minAspect <= r.value.maxAspect
      && r.value.minWidth == (if minWidth >= 0 then minWidth else 0)
      && r.value.minHeight == (if minHeight >= 0 then minHeight else 0)
      && r.value.minAspect == (if minAspect >= 0.0 then minAspect else 0.0)
      && r.value.maxAspect == (if maxAspect >= 0.0 then maxAspect else 0.0)
  {
    var f := FilterConfig(Max0(minWidth), Max0(minHeight), MaxReal0(minAspect), MaxReal0(maxAspect));
    if f.maxAspect < f.minAspect then Failure(AspectBoundsInverted) else Success(f)
  }
}

=== FILE: retry.dfy ===
/** The retry/backoff policy shared by `http_json` and `download_one`, as a pure state
    machine over (attempt, delay) and a driver that replays a server's answers. Sleeps
    are returned, not performed. */
module Retry {
  import opened Wrappers
  import Text

  /** `MAX_RETRIES`: the most attempts one request gets. */
  const MaxRetries: nat := 8
  /** Delay before the first retry, in seconds. */
  const InitialDelay: real := 1.5
  /** Ceiling of the doubling delay, in seconds. */
  const MaxDelay: real := 30.0

  /** Rate limiting and the server errors worth another try. */
  predicate RetryableStatus(code: int) {
    code in {429, 500, 502, 503, 504}
  }

  /** How one attempt failed: an HTTP error status with the raw Retry-After header, a
      network error that urllib reports as a URLError, or any other exception, which
      neither retry loop catches. */
  datatype Failure = HttpStatus(code: int, retryAfter: Option<string>) | Network | Uncaught

  /** Failures the loops retry while attempts remain. */
  predicate Transient(f: Failure) {
    f.Network? || (f.HttpStatus? && RetryableStatus(f.code))
  }

  /** What the remote end answered to one attempt. */
  datatype Reply<+T> = Ok(value: T) | Err(failure: Failure)

  /** The sleep before the next attempt: an all-digit Retry-After header is taken as
      seconds, anything else (absent, empty, non-numeric) uses the current delay. */
  function SleepFor(f: Failure, delay: real): real {
    if f.HttpStatus? && f.retryAfter.Some? && Text.IsDigits(f.retryAfter.value)
    then Text.DigitsValue(f.retryAfter.value) as real
    else delay
  }

  /** `min(delay * 2.0, 30.0)`. */
  function NextDelay(delay: real): real {
    if delay * 2.0 < MaxDelay then delay * 2.0 else MaxDelay
  }

  datatype Decision = Retry(sleep: real, nextDelay: real) | GiveUp

  /** The `except` branches of both retry loops for a failed attempt number `attempt`
      (counted from 1) while the backoff delay is `delay`. */
  function Decide(attempt: nat, delay: real, f: Failure): (d: Decision)
    ensures d.Retry? <==> attempt < MaxRetries && Transient(f)
    ensures d.Retry? ==> d.nextDelay == NextDelay(delay)
    ensures d.Retry? && !(f.HttpStatus? && f.retryAfter.Some?) ==> d.sleep == delay
  {
    match f
    case HttpStatus(code, _) =>
      if RetryableStatus(code) && attempt < MaxRetries
      then Retry(SleepFor(f, delay), NextDelay(delay))
      else GiveUp
    case Network =>
      if attempt < MaxRetries then Retry(delay, NextDelay(delay)) else GiveUp
    case Uncaught =>
      GiveUp
  }

  function Pow2(n: nat): nat {
    if n == 0 then 1 else 2 * Pow2(n - 1)
  }

  /** Closed form of the backoff delay in force at attempt `k`: 1.5 seconds doubled
      once per earlier retry, capped at 30. */
  function Backoff(k: nat): real
    requires k >= 1
  {
    var d := InitialDelay * (Pow2(k - 1) as real);
    if d < MaxDelay then d else MaxDelay
  }

  /** One doubling step of the loop moves the closed form one attempt forward. */
  lemma NextDelayBackoff(k: nat)
    requires k >= 1
    ensures NextDelay(Backoff(k)) == Backoff(k + 1)
  {
    assert Pow2(k) as real == 2.0 * (Pow2(k - 1) as real);
  }

  /** The delays the loops go through: 1.5, 3, 6, 12, 24 and then 30 for good; never
      below 1.5 and never above 30. */
  lemma {:induction false} BackoffSchedule(k: nat)
    requires k >= 1
    ensures InitialDelay <= Backoff(k) <= MaxDelay
    ensures k >= 6 ==> Backoff(k) == MaxDelay
    ensures Backoff(1) == 1.5 && Backoff(2) == 3.0 && Backoff(3) == 6.0
    ensures Backoff(4) == 12.0 && Backoff(5) == 24.0 && Backoff(6) == 30.0
  {
    assert Pow2(5) == 32;
    if k > 1 {
      BackoffSchedule(k - 1);
      assert Pow2(k - 1) as real == 2.0 * (Pow2(k - 2) as real);
    }
  }

  /** What a whole retrying request came to: the value of the first successful attempt,
      or the failure that stopped the loop; with the number of attempts made and the
      sleeps taken between them. */
  datatype Outcome<+T> =
    | Fetched(value: T, attempts: nat, sleeps: seq<real>)
    | GaveUp(failure: Failure, attempts: nat, sleeps: seq<real>)

  /** The retry loop from attempt `attempt` on, with `delay` the current backoff delay
      and `sleeps` the sleeps already taken. `server(k)` is the answer to attempt k. */
  function Loop<T>(server: nat -> Reply<T>, attempt: nat, delay: real, sleeps: seq<real>): (o: Outcome<T>)
    requires 1 <= attempt <= MaxRetries
    requires delay == Backoff(attempt)
    requires |sleeps| == attempt - 1
    ensures attempt <= o.attempts <= MaxRetries
    ensures |o.sleeps| == o.attempts - 1
    ensures o.sleeps[..|sleeps|] == sleeps
    ensures forall k :: attempt <= k < o.attempts ==>
      && server(k).Err?
      && Transient(server(k).failure)
      && o.sleeps[k - 1] == SleepFor(server(k).failure, Backoff(k))
    ensures o.Fetched? ==> server(o.attempts) == Ok(o.value)
    ensures o.GaveUp? ==>
      && server(o.attempts) == Err(o.failure)
      && (o.attempts == MaxRetries || !Transient(o.failure))
    decreases MaxRetries - attempt
  {
    match server(attempt)
    case Ok(v) => Fetched(v, attempt, sleeps)
    case Err(f) =>
      match Decide(attempt, delay, f)
      case Retry(s, next) =>
        NextDelayBackoff(attempt);
        var o := Loop(server, attempt + 1, next, sleeps + [s]);
        assert o.sleeps[attempt - 1] == (sleeps + [s])[attempt - 1] by {
          assert o.sleeps[..attempt] == sleeps + [s];
        }
        assert o.sleeps[..|sleeps|] == (sleeps + [s])[..|sleeps|];
        o
      case GiveUp => GaveUp(f, attempt, sleeps)
  }

  /** `http_json`'s loop (and the identical loop in `download_one`): at most eight
      attempts; every attempt but the last failed transiently; the run ends at the first
      success, at the first non-transient failure, or at the eighth attempt; and the
      sleep after attempt k is the Retry-After value when one was given and the backoff
      delay otherwise, while the backoff itself doubles regardless. */
  function Run<T>(server: nat -> Reply<T>): (o: Outcome<T>)
    ensures 1 <= o.attempts <= MaxRetries
    ensures |o.sleeps| == o.attempts - 1
    ensures forall k :: 1 <= k < o.attempts ==>
      && server(k).Err?
      && Transient(server(k).failure)
      && o.sleeps[k - 1] == SleepFor(server(k).failure, Backoff(k))
    ensures o.Fetched? ==> server(o.attempts) == Ok(o.value)
    ensures o.GaveUp? ==>
      && server(o.attempts) == Err(o.failure)
      && (o.attempts == MaxRetries || !Transient(o.failure))
  {
    Loop(server, 1, InitialDelay, [])
  }

  /** Without Retry-After headers no sleep exceeds 30 seconds. */
  lemma SleepsBounded<T>(server: nat -> Reply<T>)
    requires forall k :: 1 <= k <= MaxRetries && server(k).Err? && server(k).failure.HttpStatus? ==>
      server(k).failure.retryAfter.None?
    ensures forall i :: 0 <= i < |Run(server).sleeps| ==> InitialDelay <= Run(server).sleeps[i] <= MaxDelay
  {
    BackoffSleeps(server, Run(server));
  }

  /** Sleeps that follow the backoff schedule stay within its bounds. */
  lemma BackoffSleeps<T>(server: nat -> Reply<T>, o: Outcome<T>)
    requires forall k :: 1 <= k <= MaxRetries && server(k).Err? && server(k).failure.HttpStatus? ==>
      server(k).failure.retryAfter.None?
    requires o.attempts <= MaxRetries
    requires |o.sleeps| == o.attempts - 1
    requires forall k :: 1 <= k < o.attempts ==>
      && server(k).Err?
      && o.sleeps[k - 1] == SleepFor(server(k).failure, Backoff(k))
    ensures forall i :: 0 <= i < |o.sleeps| ==> InitialDelay <= o.sleeps[i] <= MaxDelay
  {
    forall i | 0 <= i < |o.sleeps|
      ensures InitialDelay <= o.sleeps[i] <= MaxDelay
    {
      var k := i + 1;
      assert o.sleeps[k - 1] == SleepFor(server(k).failure, Backoff(k));
      assert SleepFor(server(k).failure, Backoff(k)) == Backoff(k);
      BackoffSchedule(k);
    }
  }

  /** A non-retryable status such as 404 ends the request at once. */
  lemma NonRetryableFailsAtOnce<T>(server: nat -> Reply<T>)
    requires server(1).Err? && server(1).failure.HttpStatus? && !RetryableStatus(server(1).failure.code)
    ensures Run(server) == GaveUp(server(1).failure, 1, [])
  {
  }
}

=== FILE: sync.dfy ===
/** `main`: validate the filter, sweep the search results, render the manifest, then
    download and prune as asked. The remote API, the image host and the image directory
    are parameters; writing the manifest and metadata files is left to the caller. */
module Sync {
  import opened Wrappers
  import opened Records
  import Retry
  import Lex
  import Collect
  import Manifest
  import opened Fs
  import Download
  import Prune

  /** The command-line options that steer the decision logic. */
  datatype Options = Options(
    query: string,
    purity: string,
    maxPages: int,
    metadataOnly: bool,
    minWidth: int,
    minHeight: int,
    minAspect: real,
    maxAspect: real,
    pruneImages: bool)

  /** Why a run stops early: the filter bounds are inverted, or a page request gave up. */
  datatype RunError = BadFilters(reason: ConfigError) | ApiGaveUp(failure: Retry.Failure)

  /** What a completed run produced: the search pages fetched, the records, the manifest
      lines, the metadata, the image directory afterwards, each record's download status
      and the counters (when downloads ran) and the number of files pruned (when pruning
      ran). */
  datatype Report = Report(
    pages: seq<Collect.Page>,
    wallpapers: seq<Wallpaper>,
    manifest: seq<string>,
    meta: Collect.RunMeta,
    images: Prune.ImagesDir,
    statuses: seq<Download.Status>,
    tally: Option<Download.Tally>,
    pruned: Option<nat>)

  /** Records sorted strictly by id have pairwise distinct file names. */
  lemma AscendingDistinct(ws: seq<Wallpaper>)
    requires Collect.Ascending(ws)
    requires forall k :: 0 <= k < |ws| ==> WellFormed(ws[k])
    ensures Download.DistinctFilenames(ws)
  {
    forall i, j | 0 <= i < j < |ws|
      ensures ws[i].filename != ws[j].filename
    {
      if ws[i].filename == ws[j].filename {
        FilenameInjective(ws[i], ws[j]);
        Lex.Irreflexive(ws[i].id);
      }
    }
  }

  /** The directory the downloads start from: an absent directory is empty. */
  function StartOf(images: Prune.ImagesDir): Entries {
    if images.Missing? then map[] else images.entries
  }

  /** The image directory once the downloads, if any, are done. */
  function AfterDownloads(net: Download.Network, images: Prune.ImagesDir, ws: seq<Wallpaper>, metadataOnly: bool): Prune.ImagesDir {
    if metadataOnly then images else Prune.Present(Download.DownloadAll(net, StartOf(images), ws).entries)
  }

  /** The tail of `main` after the manifest is written: the downloads unless only
      metadata was asked for, then the pruning if asked for. The statuses are those of
      the batch over the starting directory and the counters are their tally; pruning
      works on the directory the batch left. */
  method DownloadAndPrune(net: Download.Network, images: Prune.ImagesDir, ws: seq<Wallpaper>, metadataOnly: bool, pruneImages: bool)
    returns (dir: Prune.ImagesDir, statuses: seq<Download.Status>, tally: Option<Download.Tally>, pruned: Option<nat>)
    requires Collect.Ascending(ws)
    requires forall k :: 0 <= k < |ws| ==> WellFormed(ws[k])
    ensures metadataOnly ==> tally.None? && statuses == []
    ensures !metadataOnly ==>
      && statuses == Download.DownloadAll(net, StartOf(images), ws).statuses
      && tally == Some(Download.TallyOf(statuses))
    ensures tally.Some? ==> tally.value.downloaded + tally.value.skipped + tally.value.failed == |ws|
    ensures pruned.Some? <==> pruneImages
    ensures var mid := AfterDownloads(net, images, ws, metadataOnly);
      && (!pruneImages ==> dir == mid)
      && (pruneImages && mid.Missing? ==> dir == Prune.Missing && pruned == Some(0))
      && (pruneImages && mid.Present? ==>
            && dir == Prune.Present(Prune.Pruned(mid.entries, Prune.KeepNames(ws)))
            && pruned == Some(|Prune.DoomedNames(mid.entries, Prune.KeepNames(ws))|))
    ensures !metadataOnly ==>
      && dir.Present?
      && |statuses| == |ws|
      && tally.Some?
      && (pruneImages && Download.Clean(statuses) ==>
            && Download.AllPresent(dir.entries, ws)
            && forall name :: name in dir.entries && dir.entries[name].Regular? ==> name in Prune.KeepNames(ws))
  {
    dir := images;
    statuses := [];
    tally := None;
    if !metadataOnly {
      var start := StartOf(images);
      var batch := Download.DownloadWallpapers(net, start, ws);
      dir := Prune.Present(batch.0.entries);
      statuses := batch.0.statuses;
      tally := Some(batch.1);
      if pruneImages && Download.Clean(statuses) {
        AscendingDistinct(ws);
        Download.AllOccupied(net, start, ws);
      }
    }
    pruned := None;
    if pruneImages {
      var after, removed := Prune.PruneImages(dir, ws);
      if dir.Present? {
        forall i | 0 <= i < |ws|
          ensures ws[i].filename in Prune.KeepNames(ws)
        {
        }
      }
      dir := after;
      pruned := Some(removed);
    }
  }

  /** `collect_wallpapers` with every page request going through the retrying client
      over `api`: the pages are the replies to pages 1..N in order, and a failure is the
      one of the first page that gave up. */
  method Sweep(api: Collect.Api, query: string, purity: string, filters: FilterConfig, maxPages: int)
    returns (r: Result<Collect.Collected, Retry.Failure>)
    ensures r.Success? ==>
      var c := r.value;
      var wps := Collect.NormalizeAll(Collect.AllItems(c.pages));
      && |c.pages| >= 1
      && var eff := Collect.EffectiveLastPage(c.pages[0].meta, maxPages);
      && |c.pages| == (if eff >= 1 then eff else 1)
      && (forall i :: 0 <= i < |c.pages| ==>
            Collect.FetchPage(api, i + 1) == Retry.Fetched(c.pages[i], Collect.FetchPage(api, i + 1).attempts, Collect.FetchPage(api, i + 1).sleeps))
      && c.meta == Collect.RunMeta(query, purity, filters, Collect.TotalReported(c.pages[0].meta),
                                   |Collect.RecordIndices(wps)|, eff, |c.wallpapers|)
      && Collect.SortedValues(c.wallpapers, Collect.Ingest(Collect.Empty, wps, filters).byId)
      && (forall w :: w in c.wallpapers ==> WellFormed(w) && Keep(w, filters))
    ensures r.Failure? ==>
      exists p :: 1 <= p && Collect.FetchPage(api, p).GaveUp? && Collect.FetchPage(api, p).failure == r.error &&
        (p == 1 || (Collect.FetchPage(api, 1).Fetched? &&
                    p <= Collect.EffectiveLastPage(Collect.FetchPage(api, 1).value.meta, maxPages))) &&
        forall q :: 1 <= q < p ==> Collect.FetchPage(api, q).Fetched?
  {
    var fetch: Collect.Fetcher := (p: int) => Collect.FetchPage(api, p);
    assert forall p :: fetch(p) == Collect.FetchPage(api, p);
    r := Collect.Collect(fetch, query, purity, filters, maxPages);
  }

  /** `main`. The filters are the options clamped at zero and a run with inverted aspect
      bounds stops before any request. Pages 1..N are fetched through the retrying client
      over `api`, where N is the last page the first reply reports, clamped by the page
      limit; the first page that gives up stops the run with its failure. The manifest
      is rendered from the same sorted records the downloads and the pruning use, and
      the downloads and pruning follow `DownloadAndPrune` over `net` and `images`. */
  method Run(opts: Options, api: Collect.Api, net: Download.Network, images: Prune.ImagesDir)
    returns (r: Result<Report, RunError>)
    ensures r.Failure? && r.error.BadFilters? <==> MaxReal0(opts.maxAspect) < MaxReal0(opts.minAspect)
    ensures r.Failure? && r.error.ApiGaveUp? ==>
      exists p :: 1 <= p && Collect.FetchPage(api, p).GaveUp? && Collect.FetchPage(api, p).failure == r.error.failure &&
        (p == 1 || (Collect.FetchPage(api, 1).Fetched? &&
                    p <= Collect.EffectiveLastPage(Collect.FetchPage(api, 1).value.meta, Max0(opts.maxPages)))) &&
        forall q :: 1 <= q < p ==> Collect.FetchPage(api, q).Fetched?
    ensures r.Success? ==>
      var o := r.value;
      var f := MakeFilters(opts.minWidth, opts.minHeight, opts.minAspect, opts.maxAspect);
      var wps := Collect.NormalizeAll(Collect.AllItems(o.pages));
      && f.Success?
      && |o.pages| >= 1
      && var eff := Collect.EffectiveLastPage(o.pages[0].meta, Max0(opts.maxPages));
      && |o.pages| == (if eff >= 1 then eff else 1)
      && (forall i :: 0 <= i < |o.pages| ==>
            Collect.FetchPage(api, i + 1) == Retry.Fetched(o.pages[i], Collect.FetchPage(api, i + 1).attempts, Collect.FetchPage(api, i + 1).sleeps))
      && o.meta == Collect.RunMeta(opts.query, opts.purity, f.value, Collect.TotalReported(o.pages[0].meta),
                                   |Collect.RecordIndices(wps)|, eff, |o.wallpapers|)
      && Collect.SortedValues(o.wallpapers, Collect.Ingest(Collect.Empty, wps, f.value).byId)
    ensures r.Success? ==>
      var o := r.value;
      && o.manifest == Manifest.Lines(o.wallpapers)
      && Collect.Ascending(o.wallpapers)
      && o.meta.unique == |o.wallpapers|
      && (forall w :: w in o.wallpapers ==> WellFormed(w) && Keep(w, o.meta.filters))
      && 0.0 <= o.meta.filters.minAspect <= o.meta.filters.maxAspect
      && (opts.metadataOnly ==> o.tally.None? && o.statuses == [])
      && (!opts.metadataOnly ==>
            && o.statuses == Download.DownloadAll(net, StartOf(images), o.wallpapers).statuses
            && o.tally == Some(Download.TallyOf(o.statuses)))
      && (o.tally.Some? ==> o.tally.value.downloaded + o.tally.value.skipped + o.tally.value.failed == |o.wallpapers|)
      && (o.pruned.Some? <==> opts.pruneImages)
      && var mid := AfterDownloads(net, images, o.wallpapers, opts.metadataOnly);
      && (!opts.pruneImages ==> o.images == mid)
      && (opts.pruneImages && mid.Missing? ==> o.images == Prune.Missing && o.pruned == Some(0))
      && (opts.pruneImages && mid.Present? ==>
            && o.images == Prune.Present(Prune.Pruned(mid.entries, Prune.KeepNames(o.wallpapers)))
            && o.pruned == Some(|Prune.DoomedNames(mid.entries, Prune.KeepNames(o.wallpapers))|))
    ensures r.Success? && !opts.metadataOnly ==>
      var o := r.value;
      && o.images.Present?
      && |o.statuses| == |o.wallpapers|
      && (opts.pruneImages && Download.Clean(o.statuses) ==>
            && Download.AllPresent(o.images.entries, o.wallpapers)
            && forall name :: name in o.images.entries && o.images.entries[name].Regular? ==>
                 name in Prune.KeepNames(o.wallpapers))
  {
    var filters := MakeFilters(opts.minWidth, opts.minHeight, opts.minAspect, opts.maxAspect);
    if filters.Failure? {
      return Failure(BadFilters(filters.error));
    }
    var collected := Sweep(api, opts.query, opts.purity, filters.value, Max0(opts.maxPages));
    if collected.Failure? {
      return Failure(ApiGaveUp(collected.error));
    }
    var c := collected.value;
    var ws := c.wallpapers;
    assert forall k :: 0 <= k < |ws| ==> WellFormed(ws[k]) by {
      forall k | 0 <= k < |ws|
        ensures WellFormed(ws[k])
      {
        assert ws[k] in ws;
      }
    }
    var dir, statuses, tally, pruned := DownloadAndPrune(net, images, ws, opts.metadataOnly, opts.pruneImages);
    r := Success(Report(c.pages, ws, Manifest.Lines(ws), c.meta, dir, statuses, tally, pruned));
  }
}

=== FILE: text.dfy ===
/** String helpers with the semantics of the Python built-ins the sync script uses:
    `str.strip()`, `str.lower()` (ASCII part), `str.isdigit()` (ASCII part), `str(int)`,
    `int(str)`, `str.split(sep)` and `sep.join(parts)`. */
module Text {
  import opened Wrappers

  /** The characters Python's `str.isspace()` accepts, which is what `str.strip()`
      removes: the ASCII controls TAB..CR and FS..US, SPACE, NEL, NO-BREAK SPACE and
      the Unicode space separators and line/paragraph separators. */
  predicate IsSpace(c: char) {
    || c == ' '
    || '\t' <= c <= '\r'
    || '\U{1C}' <= c <= '\U{1F}'
    || c == '\U{85}'
    || c == '\U{A0}'
    || c == '\U{1680}'
    || '\U{2000}' <= c <= '\U{200A}'
    || c == '\U{2028}'
    || c == '\U{2029}'
    || c == '\U{202F}'
    || c == '\U{205F}'
    || c == '\U{3000}'
  }

  predicate AllSpace(s: string) {
    forall i :: 0 <= i < |s| ==> IsSpace(s[i])
  }

  /** Number of leading whitespace characters. */
  function LeadingSpace(s: string): (n: nat)
    ensures n <= |s|
    ensures AllSpace(s[..n])
    ensures n < |s| ==> !IsSpace(s[n])
  {
    if |s| > 0 && IsSpace(s[0]) then 1 + LeadingSpace(s[1..]) else 0
  }

  /** Index at which the trailing run of whitespace starts. */
  function TrailingSpace(s: string): (n: nat)
    ensures n <= |s|
    ensures AllSpace(s[n..])
    ensures n > 0 ==> !IsSpace(s[n - 1])
  {
    if |s| > 0 && IsSpace(s[|s| - 1]) then TrailingSpace(s[..|s| - 1]) else |s|
  }

  /** `s.strip()`: the slice of `s` left after removing leading and trailing whitespace. */
  function Strip(s: string): (r: string)
    ensures exists i, j :: 0 <= i <= j <= |s| && r == s[i..j] && AllSpace(s[..i]) && AllSpace(s[j..])
    ensures r == [] || (!IsSpace(r[0]) && !IsSpace(r[|r| - 1]))
  {
    var i := LeadingSpace(s);
    var rest := s[i..];
    var j := TrailingSpace(rest);
    assert rest[..j] == s[i..i + j] && rest[j..] == s[i + j..];
    rest[..j]
  }

  /** A string strips to nothing exactly when every character is whitespace. */
  lemma StripEmptyIff(s: string)
    ensures Strip(s) == [] <==> AllSpace(s)
  {
    var i := LeadingSpace(s);
    if Strip(s) == [] {
      assert TrailingSpace(s[i..]) == 0;
      assert s[..i] == s;
    }
  }

  /** ASCII part of `str.lower()`. */
  function LowerChar(c: char): char {
    if 'A' <= c <= 'Z' then (c as int + 32) as char else c
  }

  function Lower(s: string): (r: string)
    ensures |r| == |s|
    ensures forall i :: 0 <= i < |s| ==> r[i] == LowerChar(s[i])
  {
    seq(|s|, i requires 0 <= i < |s| => LowerChar(s[i]))
  }

  predicate IsDigit(c: char) {
    '0' <= c <= '9'
  }

  /** ASCII part of `str.isdigit()`: false on the empty string. */
  predicate IsDigits(s: string) {
    |s| > 0 && forall i :: 0 <= i < |s| ==> IsDigit(s[i])
  }

  /** Decimal value of a string of ASCII digits, as `int(s)` or `float(s)` read it. */
  function DigitsValue(s: string): nat
    requires forall i :: 0 <= i < |s| ==> IsDigit(s[i])
  {
    if |s| == 0 then 0 else DigitsValue(s[..|s| - 1]) * 10 + DigitValue(s[|s| - 1])
  }

  function DigitValue(c: char): (d: nat)
    requires IsDigit(c)
    ensures d < 10
  {
    c as int - '0' as int
  }

  function DigitChar(d: nat): (c: char)
    requires d < 10
    ensures IsDigit(c) && DigitValue(c) == d
  {
    ('0' as int + d) as char
  }

  /** `str(n)` for a natural number: its shortest decimal spelling. */
  function NatToString(n: nat): (r: string)
    ensures IsDigits(r)
    ensures DigitsValue(r) == n
    ensures |r| > 1 ==> r[0] != '0'
  {
    if n < 10 then [DigitChar(n)]
    else
      var prefix := NatToString(n / 10);
      var r := prefix + [DigitChar(n % 10)];
      assert r[..|r| - 1] == prefix;
      r
  }

  /** `str(i)` for a Python int: a minus sign before the magnitude when negative. */
  function IntToString(i: int): string {
    if i < 0 then "-" + NatToString(-i) else NatToString(i)
  }

  /** `int(s)` restricted to an optional minus sign followed by ASCII digits. */
  function ParseInt(s: string): Option<int> {
    if |s| > 0 && s[0] == '-' && IsDigits(s[1..]) then Some(0 - DigitsValue(s[1..]))
    else if IsDigits(s) then Some(DigitsValue(s))
    else None
  }

  /** Rendering an integer and reading it back gives the same integer. */
  lemma ParseIntRoundTrip(i: int)
    ensures ParseInt(IntToString(i)) == Some(i)
  {
    if i < 0 {
      assert IntToString(i)[1..] == NatToString(-i);
    }
  }

  /** A rendered integer never contains the given separator unless it is a digit or '-'. */
  lemma IntToStringAvoids(i: int, sep: char)
    requires !IsDigit(sep) && sep != '-'
    ensures sep !in IntToString(i)
  {
    var s := IntToString(i);
    if i < 0 {
      assert s == "-" + NatToString(-i);
      assert forall k :: 1 <= k < |s| ==> s[k] == NatToString(-i)[k - 1];
    }
  }

  /** Position of the first occurrence of `c` in `s`. */
  function IndexOf(s: string, c: char): (k: nat)
    requires c in s
    ensures k < |s| && s[k] == c && c !in s[..k]
  {
    if s[0] == c then 0
    else
      assert c in s[1..] by {
        var j :| 0 <= j < |s| && s[j] == c;
        assert s[1..][j - 1] == c;
      }
      var k := 1 + IndexOf(s[1..], c);
      assert s[..k] == [s[0]] + s[1..][..k - 1];
      k
  }

  /** `s.split(sep)`: the pieces between occurrences of `sep`, empty pieces kept. */
  function Split(s: string, sep: char): (r: seq<string>)
    ensures |r| >= 1
    ensures forall k :: 0 <= k < |r| ==> sep !in r[k]
    decreases |s|
  {
    if sep !in s then [s]
    else
      var i := IndexOf(s, sep);
      [s[..i]] + Split(s[i + 1..], sep)
  }

  /** `sep.join(parts)`. */
  function Join(parts: seq<string>, sep: char): string {
    if |parts| == 0 then ""
    else if |parts| == 1 then parts[0]
    else parts[0] + [sep] + Join(parts[1..], sep)
  }

  /** Splitting at the first separator: the piece before it, then the rest split. */
  lemma SplitFirst(p: string, sep: char, rest: string)
    requires sep !in p
    ensures Split(p + [sep] + rest, sep) == [p] + Split(rest, sep)
  {
    var s := p + [sep] + rest;
    assert s[|p|] == sep;
    assert s[..|p|] == p;
    assert IndexOf(s, sep) == |p|;
    assert s[|p| + 1..] == rest;
  }

  /** Splitting a joined line gives the parts back when no part holds the separator. */
  lemma {:induction false} SplitJoin(parts: seq<string>, sep: char)
    requires |parts| >= 1
    requires forall k :: 0 <= k < |parts| ==> sep !in parts[k]
    ensures Split(Join(parts, sep), sep) == parts
  {
    if |parts| > 1 {
      SplitJoin(parts[1..], sep);
      SplitFirst(parts[0], sep, Join(parts[1..], sep));
      assert parts == [parts[0]] + parts[1..];
    }
  }
}

=== FILE: wrappers.dfy ===
/** Failure-compatible wrappers shared by every module of the model. */
module Wrappers {

  /** A value that may be absent, such as a rejected raw item. */
  datatype Option<+T> = None | Some(value: T)

  /** Either a value or the error that aborted the computation. */
  datatype Result<+R, +E> = Success(value: R) | Failure(error: E)
}
